=== FILE: README.md ===
# zakereen-server core in Dafny

This project models the logic of the zakereen-server back end that has
behaviour worth proving. It leaves out the Express, MongoDB and socket glue
around that logic.

- **The in-memory job queue** (`jobs/queue.js`), class `JobQueue.Queue`:
  - a priority queue, highest first, kept ordered by a stable sort;
  - one drain loop that runs the jobs one at a time;
  - a failed job is retried after a 30-second timer until its retry count reaches 3;
  - after that the job goes to a failure log, which is re-read at start-up.
- **The occasion lifecycle sweeps** (`jobs/occasionJobs.js`), module `OccasionJobs`:
  - two bulk status updates over the occasion records;
  - the wrappers that enqueue them with priorities 1 and 0.
- **The occasion write routes** (`controllers/OccasionController.js`), module `OccasionController`:
  - attendance upserts, keyed by (user, occasion);
  - the six-hour window and the overlap check of the create route;
  - the forbidden-field check of the update route;
  - the attendee extension;
  - the merge of events by `_id` and of their ratings by `ratingBy`.
- **The group routes** (`controllers/GroupController.js`), module `GroupController`:
  - create, rename, transfer of admin rights;
  - add, transfer and remove a member;
  - all of them over a store of groups and users.

Files:

| file | module | contents |
|---|---|---|
| `wrappers.dfy` | `Wrappers` | `Option` and `Result` |
| `occasions.dfy` | `Occasions` | the occasion, event and rating records; the window test of the conflict query |
| `job_queue.dfy` | `JobQueue` | the queue class and the specification functions of ordering, retries and the failure log |
| `occasion_jobs.dfy` | `OccasionJobs` | the two sweeps as maps over the records; the enqueue wrappers |
| `occasion_controller.dfy` | `OccasionController` | the attendance table and occasion store (`OccasionDb`); the create and update decisions and merges |
| `group_controller.dfy` | `GroupController` | the group and user store (`Directory`) and the member-list operations |

Modelling choices:

- **Timestamps and ids.** Timestamps are integer milliseconds. Ids are strings, and an empty string stands for a missing id.
- **Job outcomes** come from an oracle `(Action, retryCount) -> bool`.
- **Reloaded jobs fail.** A job read back from the failure log has the action `NoAction`, which always fails. The log is written with JSON, which drops the function-valued `fn`, so calling a reloaded job throws.
- **Delayed retries.** The `setTimeout` re-add becomes a `pendingRetries` list. `FireRetry` fires its head.
- **The failure-log file** is a `seq<Job>`. A missing file reads as the empty list.
- **Store queries.** The create route's conflict query and the sweeps' bulk updates are stated as predicates and maps over a `seq<Occasion>`.
- **Roles.** The role list that may manage groups comes from a module outside this model. It is the constant set `rolesForGroup`.

## Model

| member | source | states |
|---|---|---|
| JobQueue.Insert | jobs/queue.js:25-26 | defines the stable insertion of a job into a priority-ordered queue: after every job of equal or higher priority, before the lower ones |
| JobQueue.SortByPriority | jobs/queue.js:26 | defines the stable sort by priority, highest first, that `queue.sort` performs |
| JobQueue.InsertPermutes | jobs/queue.js:25-26 | inserting a job into the queue adds exactly that job: the multiset grows by it |
| JobQueue.InsertAt | jobs/queue.js:25-26 | the stable insertion places the job at one index, keeps every other job in order, has only lower priorities after it and a priority at least its own before it |
| JobQueue.InsertOrdered | jobs/queue.js:25-26 | inserting into an ordered queue keeps it ordered by non-increasing priority |
| JobQueue.SortPermutes | jobs/queue.js:26 | the sort is a permutation of its input |
| JobQueue.SortOrders | jobs/queue.js:26 | the sort's output is ordered by non-increasing priority |
| JobQueue.SortKeepsOrdered | jobs/queue.js:26 | sorting an already ordered queue leaves it as it is |
| JobQueue.AddSortsIntoPlace | jobs/queue.js:24-26 | push then sort on an ordered queue gives the stable insertion: ordered, and a permutation of the old queue plus the new job |
| JobQueue.Retries | jobs/queue.js:38-42 | defines the retries a drain schedules: one per job that throws with count below 3, carrying count + 1, in drain order |
| JobQueue.Quarantined | jobs/queue.js:43-46 | defines the entries a drain appends to the failure log: one per job that throws with count 3 or more, without its action, in drain order |
| JobQueue.RetriesMembers | jobs/queue.js:36-46 | a job is among a drain's scheduled retries exactly when it is the retry (count + 1) of a job of that drain that threw with count below 3; it is among the new log entries exactly when it is the action-less copy of a job that threw with count 3 or more |
| JobQueue.EveryFailureRecorded | jobs/queue.js:36-46 | the scheduled retries and the new log entries together number exactly the jobs that threw: no failure is lost or counted twice |
| JobQueue.RetriesAppend | jobs/queue.js:34-48 | the retries and log entries of a drain are those of its parts, in order: one job's failure does not affect the others |
| JobQueue.Reloaded | jobs/queue.js:15-19 | a reload yields one job per log entry, in log order, each with the entry's priority and retry count and no action |
| JobQueue.SpentJobsFailAgain | jobs/queue.js:34-46 | jobs without an action and with no retries left all fail, all go to the log as they are, and none is retried |
| JobQueue.ReloadFailsAgain | jobs/queue.js:12-22 | entries with no retries left all fail again after a reload and are appended to the log again, and nothing is retried; a log of action-less entries reloads to itself |
| JobQueue.AttemptsShape | jobs/queue.js:40-42 | the k-th attempt of a job carries retry count start + k with the same action and priority; every attempt but the last failed with retries left; a job starting at 0 gets at most 4 attempts |
| JobQueue.AttemptsRetried | jobs/queue.js:40-42 | over all attempts of one job the retries scheduled are exactly the later attempts |
| JobQueue.AttemptsLogged | jobs/queue.js:43-46 | over all attempts of one job the log gets one entry, the last attempt, exactly when that attempt fails |
| JobQueue.AttemptsRecorded | jobs/queue.js:40-46 | over all attempts the retries scheduled are exactly the later attempts, and the log gets one entry exactly when the last attempt fails |
| JobQueue.AlwaysFailingJob | jobs/queue.js:40-46 | a job that always fails and starts at 0 is attempted 4 times and logged once, with retry count 3 |
| JobQueue.Queue.constructor | jobs/queue.js:5-10 | the queue starts empty and idle, and start-up reloads the log: the log gains the reloaded entries that fail for good, and the others are scheduled for retry |
| JobQueue.Queue.Init | jobs/queue.js:12-22 | every log entry is added in log order with its priority and retry count and without its action; the log is not cleared, only appended to |
| JobQueue.Queue.Add | jobs/queue.js:24-28 | the job is inserted in priority order; when no drain is active the whole new queue is run in that order and the queue ends empty and idle |
| JobQueue.Queue.Run | jobs/queue.js:30-51 | nothing changes when a drain is active or the queue is empty; otherwise every queued job runs head first in priority order, retries and log entries follow each outcome, and the queue ends empty and idle |
| JobQueue.Queue.SaveFailedJob | jobs/queue.js:53-63 | the log becomes the old log plus the job without its action |
| JobQueue.Queue.FireRetry | jobs/queue.js:42 | the earliest scheduled retry is removed from the timers and re-added through `add` |
| OccasionJobs.StartOccasions | jobs/occasionJobs.js:4-13 | the start sweep keeps the number of records |
| OccasionJobs.EndOccasions | jobs/occasionJobs.js:15-24 | the end sweep keeps the number of records |
| OccasionJobs.StartOccasionsAt | jobs/occasionJobs.js:6-9 | exactly the pending records with start at or before now and end after now become started with update time now; every other record and field is unchanged |
| OccasionJobs.EndOccasionsAt | jobs/occasionJobs.js:17-20 | exactly the pending records with end at or before now become ended with update time now, started or not; everything else is unchanged |
| OccasionJobs.EndSkipsStarted | jobs/occasionJobs.js:18 | the end sweep never changes a started record |
| OccasionJobs.StartedOccasionNeverEnds | jobs/occasionJobs.js:17-20 | an occasion started at 0 and over at 10 is still started after the end sweep at 20 |
| OccasionJobs.CloseOccasions | jobs/occasionJobs.js:17-20 | defines the corrected end sweep: every record not yet ended whose window is over becomes ended, stamped now |
| OccasionJobs.CloseOccasionsAt | jobs/occasionJobs.js:17-20 | the corrected end sweep changes exactly the records that are not ended and are over, and on those only the status (to ended) and the update stamp |
| OccasionJobs.CloseOccasionsEndsAllOver | jobs/occasionJobs.js:17-20 | after the corrected end sweep every record that is over is ended and every other is unchanged; on records that never started it agrees with the sweep as written |
| OccasionJobs.SweepsOnlyAdvance | jobs/occasionJobs.js:6-19 | either sweep only moves a status forward along pending, started, ended |
| OccasionJobs.StartOccasionsIdempotent | jobs/occasionJobs.js:7-8 | after the start sweep no record matches its filter, so a second sweep at the same instant changes nothing |
| OccasionJobs.EndOccasionsIdempotent | jobs/occasionJobs.js:18-19 | after the end sweep no record matches its filter, so a second sweep at the same instant changes nothing |
| OccasionJobs.SweepsCommute | jobs/occasionJobs.js:7-18 | at one instant no record matches both filters, and the two sweeps give the same records in either order |
| OccasionJobs.SweepsKeepPendingDisjoint | jobs/occasionJobs.js:6-19 | the sweeps keep the pending occasions' windows pairwise apart |
| OccasionJobs.EnqueueStartOccasions | jobs/occasionJobs.js:27-29 | the start sweep is added with priority 1 and retry count 0: during a drain it is inserted in priority order and the log and retries are untouched; otherwise the queue, sweep included, is drained in priority order, left empty and idle, and the log and retries grow by what the drain's failures call for |
| OccasionJobs.EnqueueEndOccasions | jobs/occasionJobs.js:30-32 | the end sweep is added with priority 0 and retry count 0: during a drain it is inserted in priority order and the log and retries are untouched; otherwise the queue, sweep included, is drained in priority order, left empty and idle, and the log and retries grow by what the drain's failures call for |
| OccasionJobs.StartSweepRunsFirst | jobs/occasionJobs.js:27-32 | whichever is enqueued first, both sweeps are queued and every start sweep of priority 1 stands ahead of every end sweep of priority 0 |
| OccasionController.FindById | controllers/OccasionController.js:9 | the lookup returns the index of the first record with the id, or none when no record has it |
| OccasionController.Upserted | controllers/OccasionController.js:17-21 | defines the record the attendance upsert leaves under one key: the given status, checked in and updated now, other fields kept or defaulted |
| OccasionController.UpsertedStamps | controllers/OccasionController.js:17-21 | an upserted record has check-in and update time now and the given status; an existing record keeps its notes and creation time, and a new one gets empty notes and creation time now |
| OccasionController.UpsertAll | controllers/OccasionController.js:130-133 | defines the attendance table after upserting the request's marks one by one, in order |
| OccasionController.UpsertAllKeys | controllers/OccasionController.js:130-133 | upserting the marks in order leaves every other key as it was, stamps every marked key with the time, and gives the key of the request's final mark that mark's status |
| OccasionController.UpsertAllLastMarkWins | controllers/OccasionController.js:130-133 | the record under a user's key has the status of the last mark for that user, wherever it stands in the request |
| OccasionController.OccasionDb.MarkAttendance | controllers/OccasionController.js:8-23 | the call fails, changing nothing, unless the occasion exists and is started; otherwise exactly the one (user, occasion) key is upserted and every other key is unchanged |
| OccasionController.OccasionDb.MarkAll | controllers/OccasionController.js:129-134 | the entries are applied in request order; with any entry present on an occasion that is not started, the first one fails and nothing is written |
| OccasionController.PlanOccasion | controllers/OccasionController.js:42-74 | an unparsable start or time is rejected; the end is start + 6 h, so the end-after-start error never happens; the request is rejected exactly when a pending occasion's window meets the new one; otherwise the new record is pending with the computed window, the request's events, and exactly those descriptive fields of the request that are on the create list, with the request's values |
| OccasionController.CreateKeepsPendingDisjoint | controllers/OccasionController.js:65-73 | the overlap test is symmetric, so creating through this route keeps pending windows pairwise apart |
| OccasionController.OccasionDb.Create | controllers/OccasionController.js:25-101 | the store gains the planned record exactly when planning succeeds |
| OccasionController.FindForbiddenField | controllers/OccasionController.js:105-115 | the first of `created_by` and `start_at` that the body contains is reported; none is reported exactly when the body has neither |
| OccasionController.PresentUserIdsSpec | controllers/OccasionController.js:136-138 | an id is collected exactly when some mark has status "present" and that non-empty id |
| OccasionController.NotInSpec | controllers/OccasionController.js:143-147 | an id is added exactly when it is not an original attendee, as often as the request names it |
| OccasionController.ExtendAttendees | controllers/OccasionController.js:126-151 | the new list is the old attendees followed by the present ids that were not among them |
| OccasionController.AttendeesExtended | controllers/OccasionController.js:126-151 | the old attendees are a prefix; an id is appended exactly when it is present, non-empty and not an original attendee; repeats in the request are not suppressed |
| OccasionController.LastRatingBy | controllers/OccasionController.js:171-174 | the lookup by rater returns the last incoming rating by that rater (no later one has the rater), and returns none only when the rater has no incoming rating |
| OccasionController.OverlayRatings | controllers/OccasionController.js:176-182 | the existing ratings keep their number |
| OccasionController.AppendNewRatingsPrefix | controllers/OccasionController.js:185-192 | the list built so far stays a prefix of the result |
| OccasionController.AppendNewRatingsFromIncoming | controllers/OccasionController.js:185-192 | each appended rating is an incoming one with a rater that was not yet present, so ratings without a rater are dropped |
| OccasionController.AppendNewRatingsCovers | controllers/OccasionController.js:185-192 | every incoming rater is present in the result |
| OccasionController.AppendNewRatingsDistinct | controllers/OccasionController.js:185-192 | starting from ratings with distinct raters, no rater is repeated in the result |
| OccasionController.AppendsRating | controllers/OccasionController.js:185-190 | defines which incoming rating the append keeps: one with a rater that neither the starting list nor an earlier incoming rating has |
| OccasionController.NewRatings | controllers/OccasionController.js:185-192 | defines the kept incoming ratings, in request order |
| OccasionController.AppendNewRatingsFrom | controllers/OccasionController.js:185-192 | after the first `j` incoming ratings, the built list holds exactly the raters of the start and of those ratings, and the rest of the append adds the kept ratings from `j` on |
| OccasionController.AppendNewRatingsInOrder | controllers/OccasionController.js:185-192 | the append adds exactly the first incoming rating of each rater not yet present, in request order, and nothing else |
| OccasionController.AppendNewRatingsSpec | controllers/OccasionController.js:185-192 | the list built so far is a prefix; appended ratings are incoming ones with a rater not yet present; every incoming rater ends up present; ratings without a rater are never appended; no rater is repeated; the appended part is the first rating of each new rater, in request order |
| OccasionController.MergedRatings | controllers/OccasionController.js:170-192 | defines the merged ratings of an event: the overlaid existing ratings, then the incoming ratings by new raters |
| OccasionController.MergeRatings | controllers/OccasionController.js:170-194 | the loop computes the merged ratings of an event |
| OccasionController.MergedRatingsAppended | controllers/OccasionController.js:176-192 | the ratings appended after the existing ones are the first incoming rating of each rater that no existing rating has, in request order |
| OccasionController.MergedRatingsSpec | controllers/OccasionController.js:170-194 | existing ratings keep their order and rater and get the last incoming fields for their rater, while unmatched ones are unchanged. After them come the first incoming rating of each new rater, in request order, and nothing else. Raters stay unique |
| OccasionController.LastPatchFor | controllers/OccasionController.js:158-161 | the lookup by `_id` returns the last incoming event with that id (no later one has it), and returns none only when no incoming event has it |
| OccasionController.OverlayEvents | controllers/OccasionController.js:164-200 | the existing events keep their number |
| OccasionController.AppendNewEventsPrefix | controllers/OccasionController.js:203-208 | the list built so far stays a prefix of the result |
| OccasionController.AppendNewEventsFromIncoming | controllers/OccasionController.js:203-208 | every event appended after the built list is one of the incoming events |
| OccasionController.AppendNewEventsKeyless | controllers/OccasionController.js:203-208 | every incoming event without `_id` is appended |
| OccasionController.AppendNewEventsCovers | controllers/OccasionController.js:203-208 | every incoming `_id` is present afterwards |
| OccasionController.MergedEvents | controllers/OccasionController.js:154-208 | defines the merged events: the overlaid existing events, then the incoming events without `_id` or with an `_id` not yet in the list being built |
| OccasionController.MergeEvents | controllers/OccasionController.js:154-211 | the loop computes the merged events of an occasion |
| OccasionController.AppendNewEventsDistinct | controllers/OccasionController.js:203-208 | starting from events with distinct `_id`s, no `_id` is repeated in the result |
| OccasionController.AppendsEvent | controllers/OccasionController.js:203-206 | defines which incoming event the append keeps: one without `_id`, or one whose `_id` neither the starting list nor an earlier incoming event has |
| OccasionController.NewEvents | controllers/OccasionController.js:203-208 | defines the kept incoming events, in request order |
| OccasionController.AppendNewEventsFrom | controllers/OccasionController.js:203-208 | after the first `j` incoming events, the built list holds exactly the `_id`s of the start and of those events, and the rest of the append adds the kept events from `j` on |
| OccasionController.AppendNewEventsInOrder | controllers/OccasionController.js:203-208 | the append adds exactly every keyless incoming event and the first incoming event of each `_id` not yet present, in request order, and nothing else |
| OccasionController.MergedEventsAppended | controllers/OccasionController.js:164-208 | the events appended after the existing ones are exactly the kept incoming events of the existing list, in request order |
| OccasionController.AppendNewEventsFresh | controllers/OccasionController.js:203-208 | an appended event with an `_id` has an `_id` that no event of the starting list has |
| OccasionController.MergedEventsSpec | controllers/OccasionController.js:154-211 | existing events keep their order and id; matched ones get the last incoming fields for their id, and their ratings are kept or merged with the incoming ratings as the top-level ratings are; unmatched ones are unchanged; events without `_id` or with a new `_id` are appended; an appended `_id` is none of the existing ones. The appended part is exactly every keyless incoming event and the first incoming event of each new `_id`, in request order. When the existing `_id`s are distinct, so are the result's |
| OccasionController.Updated | controllers/OccasionController.js:141-220 | defines the record an update saves: the extended attendees, the merged events, the body's simple fields over the old ones, and the update time |
| OccasionController.UpdatedFields | controllers/OccasionController.js:213-220 | every body key other than `events` and `attendance` overwrites the record's value; every other key keeps its value; the id, status, window and creation time stay, and the update time is now |
| OccasionController.OccasionDb.Update | controllers/OccasionController.js:102-225 | a forbidden field, then a missing record, is rejected with nothing written; attendance failures abort before the record is saved; on success the record has the extended attendees, merged events, overlaid simple fields and update time now |
| GroupController.Without | controllers/GroupController.js:292 | after filtering, the user is not listed and every other listed user still is |
| GroupController.WithoutAppend | controllers/GroupController.js:292 | filtering distributes over concatenation, so the remaining members keep their order |
| GroupController.WithoutAbsent | controllers/GroupController.js:292 | filtering out a user that is not listed changes nothing, and filtering out a user just pushed undoes the push |
| GroupController.WithoutCounts | controllers/GroupController.js:292 | every other member keeps its number of occurrences |
| GroupController.WithoutDistinct | controllers/GroupController.js:292 | filtering keeps a member list free of repeats |
| GroupController.Transferred | controllers/GroupController.js:257-265 | defines the groups after the transfer as written: the user filtered out of the source group and pushed onto the target group |
| GroupController.TransferRepeatsMember | controllers/GroupController.js:257-265 | a user listed in two groups and transferred from one to the other is listed twice in the target |
| GroupController.TransferredNoRepeats | controllers/GroupController.js:257-265 | the transfer as written keeps the lists free of repeats exactly when the user was not already in a different target group |
| GroupController.TransferredOnceSpec | controllers/GroupController.js:257-265 | the corrected transfer keeps the lists free of repeats, lists the user in the target and not in a different source, and changes no other group |
| GroupController.Directory.Create | controllers/GroupController.js:38-114 | the checks run in source order: an unauthorised caller, a taken name, an invalid admin id, a details clash, no admin; on success the group's admin is the chosen user, its only member, and the user belongs to the new group |
| GroupController.Directory.Rename | controllers/GroupController.js:117-135 | a missing group or a caller that neither manages groups nor administers this one is refused; the name changes only when a non-empty name is given |
| GroupController.Directory.TransferAdmin | controllers/GroupController.js:155-191 | a new admin with role member becomes groupadmin; the old admin becomes member, read after that save; the group's admin becomes the new id |
| GroupController.Directory.AddMember | controllers/GroupController.js:194-233 | an already listed user, a user with another role and a groupadmin while the group has an admin are refused with nothing changed; otherwise members gain the user at the end and the user belongs to the group |
| GroupController.Directory.TransferMember | controllers/GroupController.js:236-268 | a non-member is refused; otherwise the user is filtered out of the source, appended to the target, and belongs to the target |
| GroupController.Directory.RemoveMember | controllers/GroupController.js:271-298 | a non-member is refused; otherwise the user is filtered out of the group, the others keep their order, and the user belongs to no group |

## Findings

| source | as written | input that shows it | evidently intended | confidence | as-written member | corrected member |
|---|---|---|---|---|---|---|
| controllers/GroupController.js:253-265 | the transfer checks membership of the source only, then pushes the user onto the target's list | user `u` listed in groups `a` and `b`, transferred from `a` to `b`: `b` lists `u` twice | the add route refuses a user who is already listed (210-213), so the target should list the user once | medium, not executed | GroupController.TransferRepeatsMember | GroupController.TransferredOnceSpec |
| jobs/occasionJobs.js:17-20 | the end sweep matches only `pending` records; no automatic path sets `ended`, only an update whose body carries `status` does | an occasion started at 0 and over at 10, swept at 20: it is still `started` | the lifecycle pending, started, ended: a started occasion whose window is over becomes ended | medium, not executed | OccasionJobs.StartedOccasionNeverEnds | OccasionJobs.CloseOccasionsEndsAllOver |

The end sweep as written stays `OccasionJobs.EndOccasions`, the sweep the queue's end job stands for; the corrected sweep is `OccasionJobs.CloseOccasions`. Because attendance can only be marked on a started occasion (controllers/OccasionController.js:10), an occasion that started stays open for attendance after its window.

`GroupController.Directory.TransferMember` keeps the behaviour as written. Its contract says when the lists stay free of repeats, and `GroupController.TransferredNoRepeats` proves the same property on the pure function.

## Left out

- **Async interleaving** in the queue is not modelled. The model drains in full before `add` returns. In the source, the loop in `init` keeps adding while the first reloaded job awaits `saveFailedJob`, so the reloaded jobs after the first run in priority order rather than log order. The order of the resulting log entries can therefore differ from the model's.
- JobQueue.Queue.Add: the branch for a drain that is already active is stated but cannot be reached from the model's sequential callers, for the reason above.
- **File I/O** is not modelled: access and read errors other than a missing file, JSON parse errors, a log that is not a list, and write errors. A `saveFailedJob` that throws would leave `isRunning` set. The `retryCount || 0` default does not arise, because every logged entry has a count.
- **Wall-clock time** is not modelled: the cron timers, the 30-second delay, and the `setHours` local-time arithmetic. The create route takes the day's midnight and the hours and minutes as integers.
- **Ids.** Mongo ObjectId casting and string conversion are not modelled, and neither is the fresh `_id` given to appended events on save. New group and user ids are method parameters.
- OccasionController.MergedEvents: three behaviours of the event merge are not modelled.
  - Aliasing of the incoming event. The source writes an event's merged ratings back into the incoming event object (controllers/OccasionController.js:194). So when two stored events share an `_id`, the second is merged against the first's merged list, not against the request's list. The model merges each stored event against the request's list. The two differ only when stored events share an `_id`, which generated subdocument `_id`s do not.
  - Schema validation on save. The schema limits a rating's `score` to 1–5 (models/occassion.js:30). An out-of-range score makes `save()` fail, and the route answers 500. `OccasionDb.Update` accepts it.
  - Defaults added on save. Appended ratings and created events get a fresh `_id`, and ratings a `createdAt` stamp. The merge treats ratings and events as given.
- **Attendance timestamps.** Each attendance write uses a fresh `new Date()`, but the model uses one `now` for the whole update. A failed attendance entry is answered as a server error.
- OccasionController.OccasionDb.Update: body keys that name typed fields (`status`, `attendees`, `ends_at`) are copied onto the document by the source. The model overlays them onto `fields` only and does not feed them into the typed fields.
- OccasionController.PlanOccasion: the descriptive fields are a string map. The structured `hijri_date` and the schema's default values are not modelled.
- **The read and delete routes** are not modelled, because their decisions are store queries: the occasion listings, `GET /` and `GET /:groupId` for groups, and `DELETE /remove/:groupId`.
- **Other code** not modelled:
  - socket emits;
  - bcrypt hashing and jwt checks in the authentication middleware;
  - the role gates of that middleware: `authAdmin` admits only superadmin and admin, and `authGroup` only superadmin, admin and groupadmin (utils/auth.js:43, 76). The model lets any caller reach the route bodies, so the admin of a group whose role is outside both lists can still rename the group or hand its admin rights on (`Directory.Rename`, `Directory.TransferAdmin`), where the route would refuse them;
  - the user controller;
  - the password hash of a group admin created with a new group, and any user details other than full name, phone and user id.
- **Group saves.** The model treats saves of loaded group documents as writes of the changed fields, with `push` appending to the stored list.

=== FILE: group_controller.dfy ===
/** The membership and admin logic of controllers/GroupController.js: a
    small state machine over the stored groups and users. The role list that
    may manage groups comes from a module outside this model and is kept as
    an opaque set of role names. */
module GroupController {
  import opened Wrappers

  type UserId = string
  type GroupId = string

  /** A group document; `admin` defaults to the empty string. */
  datatype Group = Group(name: string, admin: UserId, members: seq<UserId>)

  /** The parts of a user document the group routes read or write. */
  datatype User = User(fullname: string, phone: string, userid: string, role: string, title: string, belongsto: string)

  /** The authenticated caller: its id and its role. */
  datatype Requester = Requester(id: UserId, role: string)

  /** The identifying details of a group admin created along with the group. */
  datatype UserDetails = UserDetails(fullname: string, phone: string, userid: string)

  /** The answers other than success. */
  datatype GroupError =
    | AccessDenied
    | GroupNotFound
    | NameInUse
    | InvalidAdmin
    | UserExists
    | AdminMissing
    | AlreadyMember
    | InvalidUser
    | GroupAdminTaken
    | NotMember

  /** The roles a user must have to be added to a group. */
  const MemberRoles: set<string> := {"admin", "groupadmin", "member"}

  /** No user is listed twice. */
  ghost predicate Distinct(s: seq<UserId>)
  {
    forall i, j :: 0 <= i < j < |s| ==> s[i] != s[j]
  }

  /** `members.filter(member => member !== u)`. */
  function Without(members: seq<UserId>, u: UserId): (r: seq<UserId>)
    ensures forall x :: x in r <==> x in members && x != u
    ensures |r| <= |members|
  {
    if members == [] then []
    else
      var last := members[|members| - 1];
      Without(members[..|members| - 1], u) + (if last == u then [] else [last])
  }

  /** Filtering distributes over concatenation, so the members that stay
      keep their relative order. */
  lemma {:induction false} WithoutAppend(a: seq<UserId>, b: seq<UserId>, u: UserId)
    ensures Without(a + b, u) == Without(a, u) + Without(b, u)
    decreases |b|
  {
    if b != [] {
      var init := b[..|b| - 1];
      var last := b[|b| - 1];
      assert a + b == (a + init) + [last];
      assert (a + b)[..|a + b| - 1] == a + init;
      assert (a + b)[|a + b| - 1] == last;
      assert Without(a + b, u) == Without(a + init, u) + (if last == u then [] else [last]);
      WithoutAppend(a, init, u);
      assert Without(b, u) == Without(init, u) + (if last == u then [] else [last]);
    } else {
      assert a + b == a;
    }
  }

  /** Removing a user that is not there changes nothing; removing one just
      appended gives back the list before the append. */
  lemma {:induction false} WithoutAbsent(members: seq<UserId>, u: UserId)
    ensures u !in members ==> Without(members, u) == members
    ensures u !in members ==> Without(members + [u], u) == members
  {
    if members != [] && u !in members {
      WithoutAbsent(members[..|members| - 1], u);
      assert members == members[..|members| - 1] + [members[|members| - 1]];
    }
    if u !in members {
      WithoutAppend(members, [u], u);
      assert Without([u], u) == Without([], u) + [];
    }
  }

  /** Every other user keeps its number of occurrences. */
  lemma {:induction false} WithoutCounts(members: seq<UserId>, u: UserId, x: UserId)
    ensures multiset(Without(members, u))[x] == if x == u then 0 else multiset(members)[x]
  {
    if members != [] {
      var init := members[..|members| - 1];
      WithoutCounts(init, u, x);
      assert members == init + [members[|members| - 1]];
    }
  }

  /** Filtering keeps a list free of repeats. */
  lemma {:induction false} WithoutDistinct(members: seq<UserId>, u: UserId)
    requires Distinct(members)
    ensures Distinct(Without(members, u))
  {
    if members != [] {
      var init := members[..|members| - 1];
      var last := members[|members| - 1];
      assert Distinct(init) by {
        forall i, j | 0 <= i < j < |init| ensures init[i] != init[j] {
          assert init[i] == members[i] && init[j] == members[j];
        }
      }
      WithoutDistinct(init, u);
      assert last !in init by {
        forall i | 0 <= i < |init| ensures init[i] != last {
          assert init[i] == members[i];
        }
      }
      var w := Without(init, u);
      assert last !in w;
      if last != u {
        forall i, j | 0 <= i < j < |w + [last]| ensures (w + [last])[i] != (w + [last])[j] {
          if j == |w| {
            assert (w + [last])[i] == w[i];
          } else {
            assert (w + [last])[i] == w[i] && (w + [last])[j] == w[j];
          }
        }
      }
    }
  }

  /** No stored group lists a member twice. */
  ghost predicate NoRepeats(groups: map<GroupId, Group>)
  {
    forall g :: g in groups ==> Distinct(groups[g].members)
  }

  /** The stored groups after a member transfer as the route performs it:
      the member is filtered out of the source and saved, then pushed onto
      the target as stored and saved. The target's list is not checked for
      the member. */
  function Transferred(groups: map<GroupId, Group>, groupId: GroupId, newGroupId: GroupId, u: UserId)
    : map<GroupId, Group>
    requires groupId in groups && newGroupId in groups
  {
    var removed := groups[groupId := groups[groupId].(members := Without(groups[groupId].members, u))];
    removed[newGroupId := removed[newGroupId].(members := removed[newGroupId].members + [u])]
  }

  /** A user listed in two groups and transferred from one to the other ends
      up listed twice in the target. */
  lemma TransferRepeatsMember()
    ensures var gs := map["a" := Group("A", "", ["u"]), "b" := Group("B", "", ["u"])];
      && NoRepeats(gs)
      && Transferred(gs, "a", "b", "u")["b"].members == ["u", "u"]
      && !NoRepeats(Transferred(gs, "a", "b", "u"))
  {
    var gs := map["a" := Group("A", "", ["u"]), "b" := Group("B", "", ["u"])];
    var t := Transferred(gs, "a", "b", "u");
    assert t["b"].members[0] == t["b"].members[1];
  }

  /** Appending a user that is not listed keeps a list free of repeats. */
  lemma AppendDistinct(members: seq<UserId>, u: UserId)
    requires Distinct(members) && u !in members
    ensures Distinct(members + [u])
  {
    forall i, j | 0 <= i < j < |members + [u]| ensures (members + [u])[i] != (members + [u])[j] {
      assert (members + [u])[i] == members[i];
    }
  }

  /** The transfer keeps every group free of repeats exactly when the user
      was not already listed in a different target group. */
  lemma TransferredNoRepeats(groups: map<GroupId, Group>, groupId: GroupId, newGroupId: GroupId, u: UserId)
    requires groupId in groups && newGroupId in groups && NoRepeats(groups)
    requires u in groups[groupId].members
    ensures NoRepeats(Transferred(groups, groupId, newGroupId, u)) <==>
      (groupId == newGroupId || u !in groups[newGroupId].members)
  {
    var t := Transferred(groups, groupId, newGroupId, u);
    WithoutDistinct(groups[groupId].members, u);
    var target := if groupId == newGroupId then Without(groups[groupId].members, u) else groups[newGroupId].members;
    assert t[newGroupId].members == target + [u];
    if groupId == newGroupId || u !in groups[newGroupId].members {
      AppendDistinct(target, u);
      assert NoRepeats(t);
    } else {
      var k :| 0 <= k < |target| && target[k] == u;
      assert (target + [u])[k] == (target + [u])[|target|];
    }
  }

  /** The transfer as evidently intended: the target gains the member only
      when it is not listed there yet. */
  function TransferredOnce(groups: map<GroupId, Group>, groupId: GroupId, newGroupId: GroupId, u: UserId)
    : map<GroupId, Group>
    requires groupId in groups && newGroupId in groups
  {
    var removed := groups[groupId := groups[groupId].(members := Without(groups[groupId].members, u))];
    var target := removed[newGroupId].members;
    removed[newGroupId := removed[newGroupId].(members := if u in target then target else target + [u])]
  }

  /** The corrected transfer always keeps the groups free of repeats, leaves
      the user listed in the target, and out of a different source. */
  lemma TransferredOnceSpec(groups: map<GroupId, Group>, groupId: GroupId, newGroupId: GroupId, u: UserId)
    requires groupId in groups && newGroupId in groups && NoRepeats(groups)
    ensures var t := TransferredOnce(groups, groupId, newGroupId, u);
      && t.Keys == groups.Keys
      && NoRepeats(t)
      && u in t[newGroupId].members
      && (groupId != newGroupId ==> u !in t[groupId].members)
      && (forall g :: g in groups && g != groupId && g != newGroupId ==> t[g] == groups[g])
  {
    var t := TransferredOnce(groups, groupId, newGroupId, u);
    WithoutDistinct(groups[groupId].members, u);
    var target := if groupId == newGroupId then Without(groups[groupId].members, u) else groups[newGroupId].members;
    if u !in target {
      AppendDistinct(target, u);
    }
    assert NoRepeats(t);
  }

  /** Whether a stored group already has this name. */
  predicate NameTaken(groups: map<GroupId, Group>, name: string)
  {
    exists g :: g in groups && groups[g].name == name
  }

  /** Whether a stored user shares the full name, the phone or the user id
      with the details. */
  predicate Clashes(users: map<UserId, User>, d: UserDetails)
  {
    exists id :: id in users && (users[id].fullname == d.fullname || users[id].phone == d.phone || users[id].userid == d.userid)
  }

  /** The stored groups and users the group routes read and write. */
  class Directory {
    var groups: map<GroupId, Group>
    var users: map<UserId, User>
    /** The roles allowed to manage groups. */
    const rolesForGroup: set<string>

    constructor (gs: map<GroupId, Group>, us: map<UserId, User>, roles: set<string>)
      ensures groups == gs && users == us && rolesForGroup == roles
    {
      groups := gs;
      users := us;
      rolesForGroup := roles;
    }

    /** `POST /create`: an existing user named by `adminId` takes precedence;
        otherwise a new group admin is created from the details. The new
        group lists its admin as its only member. */
    method Create(req: Requester, name: string, adminId: UserId, details: Option<UserDetails>,
                  newGroupId: GroupId, newUserId: UserId) returns (r: Result<Group, GroupError>)
      requires newGroupId !in groups && newUserId !in users
      modifies this
      ensures NoRepeats(old(groups)) ==> NoRepeats(groups)
      ensures req.role !in rolesForGroup ==> r == Failure(AccessDenied)
      ensures (req.role in rolesForGroup && NameTaken(old(groups), name)) ==> r == Failure(NameInUse)
      ensures r.Failure? ==> groups == old(groups) && users == old(users)
      ensures (req.role in rolesForGroup && !NameTaken(old(groups), name)) ==>
        if adminId != "" then
          if adminId !in old(users) || old(users)[adminId].role !in rolesForGroup then
            r == Failure(InvalidAdmin)
          else
            && r == Success(Group(name, adminId, [adminId]))
            && groups == old(groups)[newGroupId := r.value]
            && users == old(users)[adminId := old(users)[adminId].(belongsto := name)]
        else if details.Some? then
          if Clashes(old(users), details.value) then
            r == Failure(UserExists)
          else
            && r == Success(Group(name, newUserId, [newUserId]))
            && groups == old(groups)[newGroupId := r.value]
            && users == old(users)[newUserId := User(details.value.fullname, details.value.phone,
                                                    details.value.userid, "groupadmin", "tipper", name)]
        else
          r == Failure(AdminMissing)
    {
      if req.role !in rolesForGroup {
        return Failure(AccessDenied);
      }
      if NameTaken(groups, name) {
        return Failure(NameInUse);
      }
      var groupAdmin: UserId;
      if adminId != "" {
        if adminId !in users || users[adminId].role !in rolesForGroup {
          return Failure(InvalidAdmin);
        }
        groupAdmin := adminId;
        users := users[adminId := users[adminId].(belongsto := name)];
      } else if details.Some? {
        if Clashes(users, details.value) {
          return Failure(UserExists);
        }
        var d := details.value;
        users := users[newUserId := User(d.fullname, d.phone, d.userid, "groupadmin", "tipper", name)];
        groupAdmin := newUserId;
      } else {
        return Failure(AdminMissing);
      }
      var g := Group(name, groupAdmin, [groupAdmin]);
      groups := groups[newGroupId := g];
      r := Success(g);
    }

    /** `PUT /update/:groupId`: a manager or the group's own admin may rename
        it; a missing or empty name keeps the old one. */
    method Rename(req: Requester, groupId: GroupId, name: Option<string>) returns (r: Result<Group, GroupError>)
      modifies this`groups
      ensures NoRepeats(old(groups)) ==> NoRepeats(groups)
      ensures groupId !in old(groups) ==> r == Failure(GroupNotFound)
      ensures (groupId in old(groups) && req.role !in rolesForGroup && old(groups)[groupId].admin != req.id) ==>
        r == Failure(AccessDenied)
      ensures r.Failure? ==> groups == old(groups)
      ensures (groupId in old(groups) && (req.role in rolesForGroup || old(groups)[groupId].admin == req.id)) ==>
        var g := old(groups)[groupId];
        var g' := g.(name := if name.Some? && name.value != "" then name.value else g.name);
        r == Success(g') && groups == old(groups)[groupId := g']
    {
      if groupId !in groups {
        return Failure(GroupNotFound);
      }
      var group := groups[groupId];
      if req.role !in rolesForGroup && group.admin != req.id {
        return Failure(AccessDenied);
      }
      group := group.(name := if name.Some? && name.value != "" then name.value else group.name);
      groups := groups[groupId := group];
      r := Success(group);
    }

    /** `POST /:groupId/transfer/role`: the new admin is promoted to
        groupadmin when it was a plain member; then the old admin, read back
        after that save, becomes a member; then the group points at the new
        admin. Handing the rights to the current admin therefore leaves it a
        member. */
    method TransferAdmin(req: Requester, groupId: GroupId, newAdminId: UserId) returns (r: Result<Group, GroupError>)
      modifies this
      ensures NoRepeats(old(groups)) ==> NoRepeats(groups)
      ensures groupId !in old(groups) ==> r == Failure(GroupNotFound)
      ensures (groupId in old(groups) && old(groups)[groupId].admin != req.id && req.role !in rolesForGroup) ==>
        r == Failure(AccessDenied)
      ensures (groupId in old(groups) && (old(groups)[groupId].admin == req.id || req.role in rolesForGroup)
               && newAdminId !in old(users)) ==> r == Failure(InvalidAdmin)
      ensures r.Failure? ==> groups == old(groups) && users == old(users)
      ensures r.Success? ==>
        && groupId in old(groups) && newAdminId in old(users)
        && var oldAdmin := old(groups)[groupId].admin;
           var promoted := if old(users)[newAdminId].role == "member"
                           then old(users)[newAdminId].(role := "groupadmin") else old(users)[newAdminId];
           var afterPromotion := old(users)[newAdminId := promoted];
           && r.value == old(groups)[groupId].(admin := newAdminId)
           && groups == old(groups)[groupId := r.value]
           && users == if oldAdmin in afterPromotion
                       then afterPromotion[oldAdmin := afterPromotion[oldAdmin].(role := "member")]
                       else afterPromotion
      ensures (groupId in old(groups) && (old(groups)[groupId].admin == req.id || req.role in rolesForGroup)
               && newAdminId in old(users)) ==> r.Success?
    {
      if groupId !in groups {
        return Failure(GroupNotFound);
      }
      var group := groups[groupId];
      if group.admin != req.id && req.role !in rolesForGroup {
        return Failure(AccessDenied);
      }
      if newAdminId !in users {
        return Failure(InvalidAdmin);
      }
      var newAdminUser := users[newAdminId];
      if newAdminUser.role == "member" {
        users := users[newAdminId := newAdminUser.(role := "groupadmin")];
      }
      if group.admin in users {
        users := users[group.admin := users[group.admin].(role := "member")];
      }
      group := group.(admin := newAdminId);
      groups := groups[groupId := group];
      r := Success(group);
    }

    /** `PUT /:groupId/add/member`: a manager adds an existing user with a
        member role that is not yet listed; a groupadmin is refused when the
        group already has an admin. */
    method AddMember(req: Requester, groupId: GroupId, userId: UserId) returns (r: Result<Group, GroupError>)
      modifies this
      ensures NoRepeats(old(groups)) ==> NoRepeats(groups)
      ensures req.role !in rolesForGroup ==> r == Failure(AccessDenied)
      ensures (req.role in rolesForGroup && groupId !in old(groups)) ==> r == Failure(GroupNotFound)
      ensures (req.role in rolesForGroup && groupId in old(groups) && userId in old(groups)[groupId].members) ==>
        r == Failure(AlreadyMember)
      ensures (req.role in rolesForGroup && groupId in old(groups) && userId !in old(groups)[groupId].members
               && (userId !in old(users) || old(users)[userId].role !in MemberRoles)) ==>
        r == Failure(InvalidUser)
      ensures (req.role in rolesForGroup && groupId in old(groups) && userId !in old(groups)[groupId].members
               && userId in old(users) && old(users)[userId].role == "groupadmin"
               && old(groups)[groupId].admin != "") ==>
        r == Failure(GroupAdminTaken)
      ensures r.Failure? ==> groups == old(groups) && users == old(users)
      ensures r.Success? ==>
        && groupId in old(groups) && userId in old(users)
        && userId !in old(groups)[groupId].members
        && old(users)[userId].role in MemberRoles
        && (old(users)[userId].role == "groupadmin" ==> old(groups)[groupId].admin == "")
        && r.value == old(groups)[groupId].(members := old(groups)[groupId].members + [userId])
        && groups == old(groups)[groupId := r.value]
        && users == old(users)[userId := old(users)[userId].(belongsto := r.value.name)]
    {
      if req.role !in rolesForGroup {
        return Failure(AccessDenied);
      }
      if groupId !in groups {
        return Failure(GroupNotFound);
      }
      var group := groups[groupId];
      if userId in group.members {
        return Failure(AlreadyMember);
      }
      if userId !in users || users[userId].role !in MemberRoles {
        return Failure(InvalidUser);
      }
      var user := users[userId];
      if group.admin != "" && user.role == "groupadmin" {
        return Failure(GroupAdminTaken);
      }
      group := group.(members := group.members + [userId]);
      users := users[userId := user.(belongsto := group.name)];
      groups := groups[groupId := group];
      r := Success(group);
    }

    /** `POST /:groupId/transfer/member`: a member of the source group is
        filtered out of it and pushed onto the target, whose name it now
        belongs to. Both saves reach the store in turn, the push as an append
        to the stored list, so a transfer into the same group moves the member
        to the end of the list, and a user already in the target is listed
        there twice. */
    method TransferMember(req: Requester, groupId: GroupId, userId: UserId, newGroupId: GroupId)
      returns (r: Result<Group, GroupError>)
      modifies this
      ensures req.role !in rolesForGroup ==> r == Failure(AccessDenied)
      ensures (req.role in rolesForGroup && (groupId !in old(groups) || newGroupId !in old(groups))) ==>
        r == Failure(GroupNotFound)
      ensures (req.role in rolesForGroup && groupId in old(groups) && newGroupId in old(groups)
               && (userId !in old(users) || userId !in old(groups)[groupId].members)) ==>
        r == Failure(NotMember)
      ensures r.Failure? ==> groups == old(groups) && users == old(users)
      ensures r.Success? ==>
        && groupId in old(groups) && newGroupId in old(groups) && userId in old(users)
        && userId in old(groups)[groupId].members
        && groups == Transferred(old(groups), groupId, newGroupId, userId)
        && r == Success(groups[newGroupId])
        && users == old(users)[userId := old(users)[userId].(belongsto := old(groups)[newGroupId].name)]
      ensures (req.role in rolesForGroup && groupId in old(groups) && newGroupId in old(groups)
               && userId in old(users) && userId in old(groups)[groupId].members) ==> r.Success?
      ensures (r.Success? && NoRepeats(old(groups))) ==>
        (NoRepeats(groups) <==> groupId == newGroupId || userId !in old(groups)[newGroupId].members)
    {
      if req.role !in rolesForGroup {
        return Failure(AccessDenied);
      }
      if groupId !in groups || newGroupId !in groups {
        return Failure(GroupNotFound);
      }
      var group := groups[groupId];
      var newGroup := groups[newGroupId];
      if userId !in users || userId !in group.members {
        return Failure(NotMember);
      }
      if NoRepeats(groups) {
        TransferredNoRepeats(groups, groupId, newGroupId, userId);
      }
      groups := groups[groupId := group.(members := Without(group.members, userId))];
      var target := groups[newGroupId];
      target := target.(members := target.members + [userId]);
      users := users[userId := users[userId].(belongsto := newGroup.name)];
      groups := groups[newGroupId := target];
      r := Success(target);
    }

    /** `POST /:groupId/remove/member`: a member is filtered out of the group
        and belongs to no group afterwards. */
    method RemoveMember(req: Requester, groupId: GroupId, userId: UserId) returns (r: Result<Group, GroupError>)
      modifies this
      ensures NoRepeats(old(groups)) ==> NoRepeats(groups)
      ensures req.role !in rolesForGroup ==> r == Failure(AccessDenied)
      ensures (req.role in rolesForGroup && groupId !in old(groups)) ==> r == Failure(GroupNotFound)
      ensures (req.role in rolesForGroup && groupId in old(groups)
               && (userId !in old(users) || userId !in old(groups)[groupId].members)) ==>
        r == Failure(NotMember)
      ensures r.Failure? ==> groups == old(groups) && users == old(users)
      ensures r.Success? ==>
        && groupId in old(groups) && userId in old(users) && userId in old(groups)[groupId].members
        && r.value == old(groups)[groupId].(members := Without(old(groups)[groupId].members, userId))
        && userId !in r.value.members
        && groups == old(groups)[groupId := r.value]
        && users == old(users)[userId := old(users)[userId].(belongsto := "")]
      ensures (req.role in rolesForGroup && groupId in old(groups)
               && userId in old(users) && userId in old(groups)[groupId].members) ==> r.Success?
    {
      if req.role !in rolesForGroup {
        return Failure(AccessDenied);
      }
      if groupId !in groups {
        return Failure(GroupNotFound);
      }
      var group := groups[groupId];
      if userId !in users || userId !in group.members {
        return Failure(NotMember);
      }
      if NoRepeats(groups) {
        WithoutDistinct(group.members, userId);
      }
      group := group.(members := Without(group.members, userId));
      users := users[userId := users[userId].(belongsto := "")];
      groups := groups[groupId := group];
      r := Success(group);
    }
  }
}

=== FILE: job_queue.dfy ===
/** The in-memory job queue of jobs/queue.js: a priority queue that one drain
    loop empties job by job, retrying a failed job after a delay and writing a
    job that has used up its retries to the failure log. */
module JobQueue {

  /** What a queued job runs. The two occasion sweeps are the only bodies the
      application enqueues. A job read back from the failure log carries
      `NoAction`: the log is written with JSON, which drops the function-valued
      `fn`, so calling the reloaded job's action throws. */
  datatype Action = StartOccasionsJob | EndOccasionsJob | NoAction

  /** A queue entry `{ fn, priority, retryCount }`. */
  datatype Job = Job(action: Action, priority: int, retryCount: int)

  /** A failed job is retried while its retry count is below this bound. */
  const MaxRetries := 3

  /** Outcome of running an action on the attempt with the given retry count:
      true when the action completes, false when it throws. */
  type Oracle = (Action, int) -> bool

  /** Whether running `j` completes; a job without an action always throws. */
  predicate Succeeds(ok: Oracle, j: Job)
  {
    j.action != NoAction && ok(j.action, j.retryCount)
  }

  /** The job a delayed retry re-adds: same action and priority, one more retry. */
  function Retry(j: Job): Job
  {
    j.(retryCount := j.retryCount + 1)
  }

  /** What the failure log keeps of a job, and what a reload gets back. */
  function Persisted(j: Job): Job
  {
    j.(action := NoAction)
  }

  /** The jobs `init` re-adds for the entries of a failure log, in log order. */
  function Reloaded(entries: seq<Job>): (r: seq<Job>)
    ensures |r| == |entries|
    ensures forall k :: 0 <= k < |r| ==> r[k] == Persisted(entries[k])
  {
    if entries == [] then []
    else Reloaded(entries[..|entries| - 1]) + [Persisted(entries[|entries| - 1])]
  }

  lemma ReloadedOneMore(entries: seq<Job>, e: Job)
    ensures Reloaded(entries + [e]) == Reloaded(entries) + [Persisted(e)]
  {
    assert (entries + [e])[..|entries|] == entries;
  }

  // ---------------------------------------------------------------------------
  // Ordering: `queue.sort((a, b) => b.priority - a.priority)`

  /** Highest priority first: no job is less urgent than one behind it. */
  predicate ByPriority(q: seq<Job>)
  {
    forall i, k :: 0 <= i < k < |q| ==> q[i].priority >= q[k].priority
  }

  /** Stable insertion of `j` into a queue: it goes after every job of equal
      or higher priority that precedes the first lower-priority job from the back. */
  function Insert(q: seq<Job>, j: Job): seq<Job>
  {
    if q == [] || q[|q| - 1].priority >= j.priority then q + [j]
    else Insert(q[..|q| - 1], j) + [q[|q| - 1]]
  }

  /** The array sort the source calls, which is stable: an insertion sort on
      priority, highest first, keeping equal priorities in their order. */
  function SortByPriority(s: seq<Job>): seq<Job>
  {
    if s == [] then [] else Insert(SortByPriority(s[..|s| - 1]), s[|s| - 1])
  }

  /** Taking the head job off an ordered queue leaves it ordered. */
  lemma DropHeadOrdered(q: seq<Job>)
    requires q != [] && ByPriority(q)
    ensures ByPriority(q[1..])
  {
  }

  /** A non-empty sequence is its front followed by its last element. */
  lemma SplitLast<T>(s: seq<T>)
    requires s != []
    ensures s == s[..|s| - 1] + [s[|s| - 1]]
  {
  }

  lemma {:induction false} InsertPermutes(q: seq<Job>, j: Job)
    ensures multiset(Insert(q, j)) == multiset(q) + multiset{j}
  {
    if q != [] && q[|q| - 1].priority < j.priority {
      var init := q[..|q| - 1];
      InsertPermutes(init, j);
      SplitLast(q);
    }
  }

  /** Where `Insert` puts the new job. */
  function InsertIndex(q: seq<Job>, j: Job): (k: nat)
    ensures k <= |q|
  {
    if q == [] || q[|q| - 1].priority >= j.priority then |q| else InsertIndex(q[..|q| - 1], j)
  }

  /** `Insert` places `j` at `InsertIndex` and keeps every other job in order;
      the jobs after it all have lower priority, and the one before it does not. */
  lemma {:induction false} InsertAt(q: seq<Job>, j: Job)
    ensures var k := InsertIndex(q, j);
      && Insert(q, j) == q[..k] + [j] + q[k..]
      && (forall i :: k <= i < |q| ==> q[i].priority < j.priority)
      && (0 < k ==> q[k - 1].priority >= j.priority)
  {
    if q != [] && q[|q| - 1].priority < j.priority {
      var init := q[..|q| - 1];
      InsertAt(init, j);
      var k := InsertIndex(init, j);
      SplitLast(q);
      assert q[..k] == init[..k];
      assert q[k..] == init[k..] + [q[|q| - 1]];
    }
  }

  /** Position by position: before `InsertIndex` the old jobs, then `j`,
      then the rest of the old jobs shifted by one. */
  lemma InsertIndexing(q: seq<Job>, j: Job)
    ensures var k := InsertIndex(q, j); var r := Insert(q, j);
      && |r| == |q| + 1 && r[k] == j
      && (forall i :: 0 <= i < k ==> r[i] == q[i])
      && (forall i :: k < i < |r| ==> r[i] == q[i - 1])
  {
    InsertAt(q, j);
  }

  /** Inserting into an ordered queue keeps it ordered: `j` lands after every
      job of priority at least its own and before every job of lower priority. */
  lemma InsertOrdered(q: seq<Job>, j: Job)
    requires ByPriority(q)
    ensures var k := InsertIndex(q, j);
      && (forall i :: 0 <= i < k ==> q[i].priority >= j.priority)
      && (forall i :: k <= i < |q| ==> q[i].priority < j.priority)
    ensures ByPriority(Insert(q, j))
  {
    InsertAt(q, j);
    InsertIndexing(q, j);
    var k := InsertIndex(q, j);
    var r := Insert(q, j);
    assert forall i :: 0 <= i < k ==> q[i].priority >= j.priority by {
      if 0 < k {
        assert q[k - 1].priority >= j.priority;
      }
    }
    forall i, m | 0 <= i < m < |r|
      ensures r[i].priority >= r[m].priority
    {
      var pi := if i <= k then i else i - 1;
      var pm := if m <= k then m else m - 1;
      assert pi <= pm;
      if i == k {
        assert r[m] == q[pm];
      } else if m == k {
        assert r[i] == q[pi];
      } else {
        assert r[i] == q[pi] && r[m] == q[pm];
      }
    }
  }

  lemma {:induction false} SortPermutes(s: seq<Job>)
    ensures multiset(SortByPriority(s)) == multiset(s)
  {
    if s != [] {
      var init := s[..|s| - 1];
      SortPermutes(init);
      InsertPermutes(SortByPriority(init), s[|s| - 1]);
      SplitLast(s);
    }
  }

  lemma {:induction false} SortOrders(s: seq<Job>)
    ensures ByPriority(SortByPriority(s))
  {
    if s != [] {
      SortOrders(s[..|s| - 1]);
      InsertOrdered(SortByPriority(s[..|s| - 1]), s[|s| - 1]);
    }
  }

  /** Sorting a queue that is already in priority order leaves it as it is. */
  lemma {:induction false} SortKeepsOrdered(s: seq<Job>)
    requires ByPriority(s)
    ensures SortByPriority(s) == s
  {
    if s != [] {
      var init := s[..|s| - 1];
      SortKeepsOrdered(init);
      SplitLast(s);
    }
  }

  /** `add` pushes onto an ordered queue and sorts: the result is the stable
      insertion of the new job, an ordered permutation of the old queue plus it. */
  lemma AddSortsIntoPlace(q: seq<Job>, j: Job)
    requires ByPriority(q)
    ensures SortByPriority(q + [j]) == Insert(q, j)
    ensures ByPriority(Insert(q, j))
    ensures multiset(Insert(q, j)) == multiset(q) + multiset{j}
  {
    assert (q + [j])[..|q|] == q;
    SortKeepsOrdered(q);
    InsertOrdered(q, j);
    InsertPermutes(q, j);
  }

  // ---------------------------------------------------------------------------
  // What a drain does with the jobs it runs

  /** The retries scheduled while running `run` in order: one per job that
      fails with retries left. */
  function Retries(ok: Oracle, run: seq<Job>): seq<Job>
  {
    if run == [] then []
    else
      var j := run[|run| - 1];
      Retries(ok, run[..|run| - 1])
        + (if !Succeeds(ok, j) && j.retryCount < MaxRetries then [Retry(j)] else [])
  }

  /** The entries appended to the failure log while running `run` in order:
      one per job that fails with no retries left. */
  function Quarantined(ok: Oracle, run: seq<Job>): seq<Job>
  {
    if run == [] then []
    else
      var j := run[|run| - 1];
      Quarantined(ok, run[..|run| - 1])
        + (if !Succeeds(ok, j) && j.retryCount >= MaxRetries then [Persisted(j)] else [])
  }

  /** Running one more job extends the scheduled retries and log entries by
      what that job's outcome calls for. */
  lemma RunOneMore(ok: Oracle, run: seq<Job>, j: Job)
    ensures Retries(ok, run + [j]) ==
      Retries(ok, run) + (if !Succeeds(ok, j) && j.retryCount < MaxRetries then [Retry(j)] else [])
    ensures Quarantined(ok, run + [j]) ==
      Quarantined(ok, run) + (if !Succeeds(ok, j) && j.retryCount >= MaxRetries then [Persisted(j)] else [])
  {
    assert (run + [j])[..|run|] == run;
  }

  /** A drain schedules exactly the retries of the jobs in it that fail with
      retries left, and logs exactly the jobs that fail with none left. */
  lemma {:induction false} RetriesMembers(ok: Oracle, run: seq<Job>, x: Job)
    ensures x in Retries(ok, run) <==>
      exists k :: 0 <= k < |run| && !Succeeds(ok, run[k]) && run[k].retryCount < MaxRetries && x == Retry(run[k])
    ensures x in Quarantined(ok, run) <==>
      exists k :: 0 <= k < |run| && !Succeeds(ok, run[k]) && run[k].retryCount >= MaxRetries && x == Persisted(run[k])
  {
    if run != [] {
      var init := run[..|run| - 1];
      var last := |run| - 1;
      RetriesMembers(ok, init, x);
      RunOneMore(ok, init, run[last]);
      SplitLast(run);
      if x in Retries(ok, init) {
        var k :| 0 <= k < |init| && !Succeeds(ok, init[k]) && init[k].retryCount < MaxRetries && x == Retry(init[k]);
        assert run[k] == init[k];
      }
      if x in Quarantined(ok, init) {
        var k :| 0 <= k < |init| && !Succeeds(ok, init[k]) && init[k].retryCount >= MaxRetries && x == Persisted(init[k]);
        assert run[k] == init[k];
      }
      if exists k :: 0 <= k < |run| && !Succeeds(ok, run[k]) && run[k].retryCount < MaxRetries && x == Retry(run[k]) {
        var k :| 0 <= k < |run| && !Succeeds(ok, run[k]) && run[k].retryCount < MaxRetries && x == Retry(run[k]);
        if k < last {
          assert init[k] == run[k];
        }
      }
      if exists k :: 0 <= k < |run| && !Succeeds(ok, run[k]) && run[k].retryCount >= MaxRetries && x == Persisted(run[k]) {
        var k :| 0 <= k < |run| && !Succeeds(ok, run[k]) && run[k].retryCount >= MaxRetries && x == Persisted(run[k]);
        if k < last {
          assert init[k] == run[k];
        }
      }
    }
  }

  /** How many jobs of `run` throw. */
  function Failures(ok: Oracle, run: seq<Job>): nat
  {
    if run == [] then 0
    else Failures(ok, run[..|run| - 1]) + (if Succeeds(ok, run[|run| - 1]) then 0 else 1)
  }

  /** No failure is lost: each job that throws is either scheduled for retry
      or logged, never both. */
  lemma {:induction false} EveryFailureRecorded(ok: Oracle, run: seq<Job>)
    ensures |Retries(ok, run)| + |Quarantined(ok, run)| == Failures(ok, run)
  {
    if run != [] {
      EveryFailureRecorded(ok, run[..|run| - 1]);
    }
  }

  lemma {:induction false} RetriesAppend(ok: Oracle, a: seq<Job>, b: seq<Job>)
    ensures Retries(ok, a + b) == Retries(ok, a) + Retries(ok, b)
    ensures Quarantined(ok, a + b) == Quarantined(ok, a) + Quarantined(ok, b)
  {
    if b != [] {
      var init := b[..|b| - 1];
      RetriesAppend(ok, a, init);
      assert (a + b)[..|a + b| - 1] == a + init;
    } else {
      assert a + b == a;
    }
  }

  /** Jobs without an action and with no retries left all fail and are all
      written to the log as they are; none is retried. */
  lemma {:induction false} SpentJobsFailAgain(ok: Oracle, run: seq<Job>)
    requires forall k :: 0 <= k < |run| ==> run[k].action == NoAction && run[k].retryCount >= MaxRetries
    ensures Quarantined(ok, run) == run && Retries(ok, run) == []
  {
    if run != [] {
      var init := run[..|run| - 1];
      SpentJobsFailAgain(ok, init);
      SplitLast(run);
    }
  }

  /** A job read back from the log never succeeds: it is retried while its
      recorded count allows and otherwise written to the log again. When every
      entry has used up its retries (as every entry the drain writes has), a
      start-up appends the whole log to itself. */
  lemma ReloadFailsAgain(ok: Oracle, entries: seq<Job>)
    ensures (forall k :: 0 <= k < |entries| ==> entries[k].retryCount >= MaxRetries) ==>
      Quarantined(ok, Reloaded(entries)) == Reloaded(entries) && Retries(ok, Reloaded(entries)) == []
    ensures (forall k :: 0 <= k < |entries| ==> entries[k].action == NoAction) ==>
      Reloaded(entries) == entries
  {
    var r := Reloaded(entries);
    if forall k :: 0 <= k < |entries| ==> entries[k].retryCount >= MaxRetries {
      SpentJobsFailAgain(ok, r);
    }
  }

  /** The attempts one logical job gets when every scheduled retry is fired:
      it is run, and while it fails with retries left its retry runs next. */
  function Attempts(ok: Oracle, j: Job): seq<Job>
    decreases MaxRetries - j.retryCount
  {
    if !Succeeds(ok, j) && j.retryCount < MaxRetries then [j] + Attempts(ok, Retry(j)) else [j]
  }

  /** The k-th attempt carries the k-th retry count; every attempt before the
      last fails with retries left; a job that starts at 0 is attempted at
      most 1 + MaxRetries times. */
  lemma {:induction false} AttemptsShape(ok: Oracle, j: Job)
    ensures var a := Attempts(ok, j);
      && 1 <= |a|
      && (forall k :: 0 <= k < |a| ==> a[k] == j.(retryCount := j.retryCount + k))
      && (forall k :: 0 <= k < |a| - 1 ==> !Succeeds(ok, a[k]) && a[k].retryCount < MaxRetries)
      && (0 <= j.retryCount <= MaxRetries ==> |a| <= MaxRetries + 1 - j.retryCount)
    decreases MaxRetries - j.retryCount
  {
    if !Succeeds(ok, j) && j.retryCount < MaxRetries {
      AttemptsShape(ok, Retry(j));
    }
  }

  /** Running a single job schedules its retry or logs it, as its outcome calls for. */
  lemma RunSingle(ok: Oracle, j: Job)
    ensures Retries(ok, [j]) == (if !Succeeds(ok, j) && j.retryCount < MaxRetries then [Retry(j)] else [])
    ensures Quarantined(ok, [j]) == (if !Succeeds(ok, j) && j.retryCount >= MaxRetries then [Persisted(j)] else [])
  {
    assert [j][..0] == [];
  }

  /** The retries the drain schedules for one logical job are exactly its
      later attempts. */
  lemma {:induction false} AttemptsRetried(ok: Oracle, j: Job)
    ensures var a := Attempts(ok, j); Retries(ok, a) == a[1..]
    decreases MaxRetries - j.retryCount
  {
    RunSingle(ok, j);
    if !Succeeds(ok, j) && j.retryCount < MaxRetries {
      var rest := Attempts(ok, Retry(j));
      AttemptsRetried(ok, Retry(j));
      RetriesAppend(ok, [j], rest);
      assert rest[0] == Retry(j);
      assert [Retry(j)] + rest[1..] == rest;
    }
  }

  /** The log receives one entry for a logical job, its last attempt, exactly
      when that last attempt fails too. */
  lemma {:induction false} AttemptsLogged(ok: Oracle, j: Job)
    ensures var a := Attempts(ok, j);
      Quarantined(ok, a) == (if Succeeds(ok, a[|a| - 1]) then [] else [Persisted(a[|a| - 1])])
    decreases MaxRetries - j.retryCount
  {
    RunSingle(ok, j);
    if !Succeeds(ok, j) && j.retryCount < MaxRetries {
      var rest := Attempts(ok, Retry(j));
      AttemptsLogged(ok, Retry(j));
      RetriesAppend(ok, [j], rest);
      var a := Attempts(ok, j);
      assert a[|a| - 1] == rest[|rest| - 1];
    }
  }

  /** What the drain records about one logical job: the retries it schedules
      are exactly the later attempts, and the log receives one entry, the last
      attempt, exactly when that last attempt fails too. */
  lemma AttemptsRecorded(ok: Oracle, j: Job)
    ensures var a := Attempts(ok, j);
      && Retries(ok, a) == a[1..]
      && Quarantined(ok, a) == (if Succeeds(ok, a[|a| - 1]) then [] else [Persisted(a[|a| - 1])])
  {
    AttemptsRetried(ok, j);
    AttemptsLogged(ok, j);
  }

  /** A job that fails on every attempt and starts at 0 is run four times and
      ends in the failure log once, with retry count 3. */
  lemma AlwaysFailingJob(ok: Oracle, j: Job)
    requires j.retryCount == 0
    requires forall r :: 0 <= r <= MaxRetries ==> !Succeeds(ok, j.(retryCount := r))
    ensures |Attempts(ok, j)| == MaxRetries + 1
    ensures Quarantined(ok, Attempts(ok, j)) == [Persisted(j.(retryCount := MaxRetries))]
  {
    AttemptsShape(ok, j);
    AttemptsRecorded(ok, j);
  }

  /** One step of `init`: re-adding the next log entry to an idle, empty
      queue runs exactly that entry, so the runs so far extend by one. */
  lemma ReloadStep(ok: Oracle, failed: seq<Job>, i: int, executed: seq<Job>, ran: seq<Job>, retries: seq<Job>)
    requires 0 <= i < |failed| && executed == Reloaded(failed[..i])
    requires ran == Insert([], Job(NoAction, failed[i].priority, failed[i].retryCount))
    ensures executed + ran == Reloaded(failed[..i + 1])
    ensures failed + Quarantined(ok, executed) + Quarantined(ok, ran) == failed + Quarantined(ok, executed + ran)
    ensures retries + Retries(ok, executed) + Retries(ok, ran) == retries + Retries(ok, executed + ran)
  {
    assert ran == [Persisted(failed[i])];
    assert failed[..i + 1] == failed[..i] + [failed[i]];
    ReloadedOneMore(failed[..i], failed[i]);
    RetriesAppend(ok, executed, ran);
  }

  // ---------------------------------------------------------------------------
  // The queue object

  class Queue {
    /** The live queue, highest priority first. */
    var queue: seq<Job>
    /** Whether the drain loop is active. */
    var isRunning: bool
    /** The list in the failure-log file; [] also stands for a missing file. */
    var failedJobs: seq<Job>
    /** Re-adds scheduled with a 30 s timer and not fired yet, in firing order. */
    var pendingRetries: seq<Job>

    ghost predicate Valid()
      reads this
    {
      && ByPriority(queue)
      && forall k :: 0 <= k < |failedJobs| ==> failedJobs[k].action == NoAction
    }

    /** Construction with the failure log found on disk: the queue starts
        empty and idle, and `init` re-adds every log entry. */
    constructor (stored: seq<Job>, ok: Oracle)
      requires forall k :: 0 <= k < |stored| ==> stored[k].action == NoAction
      ensures Valid() && queue == [] && !isRunning
      ensures failedJobs == stored + Quarantined(ok, stored)
      ensures pendingRetries == Retries(ok, stored)
    {
      queue := [];
      isRunning := false;
      failedJobs := stored;
      pendingRetries := [];
      new;
      ReloadFailsAgain(ok, stored);
      var reloaded := Init(ok);
    }

    /** `init`: re-add every entry of the failure log, in order, with its
        priority and retry count; the log itself is not cleared. */
    method Init(ok: Oracle) returns (executed: seq<Job>)
      requires Valid() && queue == [] && !isRunning
      modifies this
      ensures Valid() && queue == [] && !isRunning
      ensures executed == Reloaded(old(failedJobs))
      ensures failedJobs == old(failedJobs) + Quarantined(ok, executed)
      ensures pendingRetries == old(pendingRetries) + Retries(ok, executed)
    {
      var failed := failedJobs;
      executed := [];
      for i := 0 to |failed|
        invariant Valid() && queue == [] && !isRunning
        invariant executed == Reloaded(failed[..i])
        invariant failedJobs == failed + Quarantined(ok, executed)
        invariant pendingRetries == old(pendingRetries) + Retries(ok, executed)
      {
        var entry := failed[i];
        var job := Job(NoAction, entry.priority, entry.retryCount);
        var ran := Add(job, ok);
        ReloadStep(ok, failed, i, executed, ran, old(pendingRetries));
        executed := executed + ran;
      }
      assert failed[..|failed|] == failed;
    }

    /** `add`: push the job, sort the queue by priority, and start draining. */
    method Add(job: Job, ok: Oracle) returns (executed: seq<Job>)
      requires Valid()
      modifies this
      ensures Valid()
      ensures old(isRunning) ==>
        && executed == [] && isRunning
        && queue == Insert(old(queue), job)
        && failedJobs == old(failedJobs) && pendingRetries == old(pendingRetries)
      ensures !old(isRunning) ==>
        && executed == Insert(old(queue), job) && queue == [] && !isRunning
        && failedJobs == old(failedJobs) + Quarantined(ok, executed)
        && pendingRetries == old(pendingRetries) + Retries(ok, executed)
    {
      AddSortsIntoPlace(queue, job);
      queue := SortByPriority(queue + [job]);
      executed := Run(ok);
    }

    /** `run`: unless a drain is active or the queue is empty, take the head
        job, run it, and on failure schedule its retry or log it, until the
        queue is empty. One job's failure does not stop the loop. */
    method Run(ok: Oracle) returns (executed: seq<Job>)
      requires Valid()
      modifies this
      ensures Valid()
      ensures old(isRunning) || old(queue) == [] ==>
        && executed == [] && queue == old(queue) && isRunning == old(isRunning)
        && failedJobs == old(failedJobs) && pendingRetries == old(pendingRetries)
      ensures !old(isRunning) && old(queue) != [] ==>
        && executed == old(queue) && ByPriority(executed) && queue == [] && !isRunning
        && failedJobs == old(failedJobs) + Quarantined(ok, executed)
        && pendingRetries == old(pendingRetries) + Retries(ok, executed)
    {
      if isRunning || |queue| == 0 {
        return [];
      }
      isRunning := true;
      executed := [];
      ghost var q0 := queue;
      while |queue| > 0
        invariant Valid() && isRunning
        invariant |executed| <= |q0| && executed == q0[..|executed|] && queue == q0[|executed|..]
        invariant failedJobs == old(failedJobs) + Quarantined(ok, executed)
        invariant pendingRetries == old(pendingRetries) + Retries(ok, executed)
        decreases |queue|
      {
        var job := queue[0];
        DropHeadOrdered(queue);
        queue := queue[1..];
        RunOneMore(ok, executed, job);
        if !Succeeds(ok, job) {
          if job.retryCount < MaxRetries {
            pendingRetries := pendingRetries + [Retry(job)];
          } else {
            SaveFailedJob(job);
          }
        }
        assert q0[..|executed| + 1] == executed + [job];
        executed := executed + [job];
      }
      assert executed == q0;
      isRunning := false;
    }

    /** `saveFailedJob`: the log becomes the old list plus the job, without its
        action; a missing file reads as the empty list. */
    method SaveFailedJob(job: Job)
      requires Valid()
      modifies this`failedJobs
      ensures Valid()
      ensures failedJobs == old(failedJobs) + [Persisted(job)]
    {
      var failed := failedJobs;
      failed := failed + [Persisted(job)];
      failedJobs := failed;
    }

    /** The 30 s timer of the earliest scheduled retry fires and re-adds it. */
    method FireRetry(ok: Oracle) returns (executed: seq<Job>)
      requires Valid()
      modifies this
      ensures Valid()
      ensures old(pendingRetries) == [] ==>
        && executed == [] && queue == old(queue) && isRunning == old(isRunning)
        && failedJobs == old(failedJobs) && pendingRetries == []
      ensures old(pendingRetries) != [] && !old(isRunning) ==>
        && executed == Insert(old(queue), old(pendingRetries)[0]) && queue == [] && !isRunning
        && failedJobs == old(failedJobs) + Quarantined(ok, executed)
        && pendingRetries == old(pendingRetries)[1..] + Retries(ok, executed)
      ensures old(pendingRetries) != [] && old(isRunning) ==>
        && executed == [] && isRunning
        && queue == Insert(old(queue), old(pendingRetries)[0])
        && failedJobs == old(failedJobs) && pendingRetries == old(pendingRetries)[1..]
    {
      if pendingRetries == [] {
        return [];
      }
      var job := pendingRetries[0];
      pendingRetries := pendingRetries[1..];
      executed := Add(job, ok);
    }
  }
}

=== FILE: occasion_controller.dfy ===
/** The write logic of controllers/OccasionController.js: attendance upserts,
    the checks and computed window of the create route, and the field check,
    attendee extension and event and rating merges of the update route. */
module OccasionController {
  import opened Wrappers
  import opened Occasions

  /** Key of the attendance collection's unique index: (user, occasion). */
  type AttendanceKey = (UserId, OccasionId)

  /** An attendance document. `checkedInAt` defaults to null. */
  datatype Attendance = Attendance(
    checkedInAt: Option<int>,
    status: string,
    notes: string,
    createdAt: int,
    updatedAt: int)

  /** The errors the create and update routes answer with. */
  datatype OccasionError =
    | EventNotActive
    | InvalidStartAt
    | InvalidTime
    | EndsNotAfterStart
    | OverlapsPending
    | FieldNotAllowed(field: string)
    | OccasionNotFound

  /** `findById` over the store: the index of the first record with `id`. */
  function FindById(os: seq<Occasion>, id: OccasionId): (r: Option<nat>)
    ensures r.Some? ==> r.value < |os| && os[r.value].id == id
    ensures r.Some? ==> forall k :: 0 <= k < r.value ==> os[k].id != id
    ensures r.None? ==> forall k :: 0 <= k < |os| ==> os[k].id != id
  {
    if os == [] then None
    else if os[0].id == id then Some(0)
    else
      match FindById(os[1..], id)
      case None => None
      case Some(k) => Some(k + 1)
  }

  // ---------------------------------------------------------------------------
  // markAttendance

  /** The record the attendance upsert leaves under its key. */
  function Upserted(prev: Option<Attendance>, status: string, now: int): (a: Attendance)
  {
    match prev
    case Some(old_) => old_.(checkedInAt := Some(now), status := status, updatedAt := now)
    case None => Attendance(Some(now), status, "", now, now)
  }

  /** Whatever record was there before, the upsert stamps the check-in and
      update times and the status, and keeps the notes and creation time of an
      existing record (a new one gets empty notes and is created now). */
  lemma UpsertedStamps(prev: Option<Attendance>, status: string, now: int)
    ensures var a := Upserted(prev, status, now);
      && a.checkedInAt == Some(now) && a.status == status && a.updatedAt == now
      && (prev.Some? ==> a.notes == prev.value.notes && a.createdAt == prev.value.createdAt)
      && (prev.None? ==> a.notes == "" && a.createdAt == now)
  {
  }

  /** One attendance entry of an update request. An empty id stands for a
      missing one. */
  datatype AttendanceMark = AttendanceMark(userId: UserId, status: string)

  /** The attendance table after upserting every mark, in request order, for
      occasion `id`. */
  function UpsertAll(t: map<AttendanceKey, Attendance>, id: OccasionId, marks: seq<AttendanceMark>, now: int)
    : map<AttendanceKey, Attendance>
  {
    if marks == [] then t
    else
      var before := UpsertAll(t, id, marks[..|marks| - 1], now);
      var m := marks[|marks| - 1];
      var key := (m.userId, id);
      before[key := Upserted(if key in before then Some(before[key]) else None, m.status, now)]
  }

  /** Upserting the marks touches only their own keys, and the record under
      a key carries the status of the last mark for that user. */
  lemma {:induction false} UpsertAllKeys(t: map<AttendanceKey, Attendance>, id: OccasionId,
                                         marks: seq<AttendanceMark>, now: int, key: AttendanceKey)
    ensures var u := UpsertAll(t, id, marks, now);
      && ((forall k :: 0 <= k < |marks| ==> (marks[k].userId, id) != key) ==>
            (key in u <==> key in t) && (key in t ==> u[key] == t[key]))
      && (forall k :: 0 <= k < |marks| && (marks[k].userId, id) == key ==>
            key in u && u[key].updatedAt == now)
      && (marks != [] && (marks[|marks| - 1].userId, id) == key ==>
            key in u && u[key].status == marks[|marks| - 1].status)
  {
    if marks != [] {
      var init := marks[..|marks| - 1];
      UpsertAllKeys(t, id, init, now, key);
      assert forall k :: 0 <= k < |init| ==> init[k] == marks[k];
    }
  }

  /** The record under a user's key carries the status of the last mark for
      that user in the request, wherever in the request that mark stands. */
  lemma {:induction false} UpsertAllLastMarkWins(t: map<AttendanceKey, Attendance>, id: OccasionId,
                                                marks: seq<AttendanceMark>, now: int, k: int)
    requires 0 <= k < |marks|
    requires forall m :: k < m < |marks| ==> marks[m].userId != marks[k].userId
    ensures var u := UpsertAll(t, id, marks, now);
      (marks[k].userId, id) in u && u[(marks[k].userId, id)].status == marks[k].status
  {
    if k < |marks| - 1 {
      var init := marks[..|marks| - 1];
      assert init[k] == marks[k];
      UpsertAllLastMarkWins(t, id, init, now, k);
    }
  }

  lemma UpsertAllOneMore(t: map<AttendanceKey, Attendance>, id: OccasionId,
                         marks: seq<AttendanceMark>, m: AttendanceMark, now: int)
    ensures var before := UpsertAll(t, id, marks, now);
      var key := (m.userId, id);
      UpsertAll(t, id, marks + [m], now)
        == before[key := Upserted(if key in before then Some(before[key]) else None, m.status, now)]
  {
    assert (marks + [m])[..|marks|] == marks;
  }

  // ---------------------------------------------------------------------------
  // POST /create

  /** An occasion lasts six hours, in milliseconds. */
  const SixHoursMs := 6 * 60 * 60 * 1000

  /** Hours and minutes taken from the request's `time`. */
  datatype TimeOfDay = TimeOfDay(hours: int, minutes: int)

  /** The create request: the day of `start_at` as the milliseconds of its
      midnight (None when it does not parse), the time of day (None when it
      does not parse), the events, and the descriptive fields. */
  datatype CreateRequest = CreateRequest(
    startDay: Option<int>,
    time: Option<TimeOfDay>,
    events: seq<Event>,
    fields: map<string, string>)

  /** The descriptive fields the create route copies into the new record. */
  const CreateFields: set<string> := {"name", "description", "created_by", "hijri_date", "location"}

  /** The start instant: the day's midnight plus the hours and minutes. */
  function StartOf(day: int, t: TimeOfDay): int
  {
    day + t.hours * 3600000 + t.minutes * 60000
  }

  /** The create route's decision: parse errors first, then the window check
      (which cannot fail), then the conflict with a pending occasion, else the
      new pending record. */
  function PlanOccasion(os: seq<Occasion>, req: CreateRequest, id: OccasionId, now: int)
    : (r: Result<Occasion, OccasionError>)
    ensures req.startDay.None? ==> r == Failure(InvalidStartAt)
    ensures req.startDay.Some? && req.time.None? ==> r == Failure(InvalidTime)
    ensures r != Failure(EndsNotAfterStart)
    ensures req.startDay.Some? && req.time.Some? ==>
      var start := StartOf(req.startDay.value, req.time.value);
      (r.Failure? <==> exists k :: 0 <= k < |os| && Conflicts(os[k], start, start + SixHoursMs))
    ensures r.Success? ==>
      && req.startDay.Some? && req.time.Some?
      && r.value.startAt == StartOf(req.startDay.value, req.time.value)
      && r.value.endsAt == r.value.startAt + SixHoursMs && r.value.endsAt > r.value.startAt
      && r.value.status == Pending && r.value.id == id
      && r.value.attendees == [] && r.value.events == req.events
      && r.value.createdAt == now && r.value.updatedAt == now
      && (forall f :: f in r.value.fields <==> f in req.fields && f in CreateFields)
      && (forall f :: f in r.value.fields ==> r.value.fields[f] == req.fields[f])
  {
    if req.startDay.None? then Failure(InvalidStartAt)
    else if req.time.None? then Failure(InvalidTime)
    else
      var start := StartOf(req.startDay.value, req.time.value);
      var ends := start + SixHoursMs;
      if ends <= start then Failure(EndsNotAfterStart)
      else if exists k :: 0 <= k < |os| && Conflicts(os[k], start, ends) then Failure(OverlapsPending)
      else
        var fields := map f | f in req.fields && f in CreateFields :: req.fields[f];
        Success(Occasion(id, Pending, start, ends, now, now, [], req.events, fields))
  }

  /** Occasions that enter the store through the create route never overlap
      a pending one: the conflict test is symmetric in the two windows, so a
      store whose pending windows are apart stays so after a create. */
  lemma CreateKeepsPendingDisjoint(os: seq<Occasion>, req: CreateRequest, id: OccasionId, now: int)
    requires PendingDisjoint(os)
    requires PlanOccasion(os, req, id, now).Success?
    ensures PendingDisjoint(os + [PlanOccasion(os, req, id, now).value])
  {
    var o := PlanOccasion(os, req, id, now).value;
    var s := os + [o];
    forall i, j | 0 <= i < |s| && 0 <= j < |s| && i != j && s[i].status == Pending
      ensures !Conflicts(s[j], s[i].startAt, s[i].endsAt)
    {
      if i == |os| {
        assert s[j] == os[j];
      } else if j == |os| {
        assert s[i] == os[i];
        assert !Conflicts(os[i], o.startAt, o.endsAt);
      } else {
        assert s[i] == os[i] && s[j] == os[j];
      }
    }
  }

  // ---------------------------------------------------------------------------
  // PATCH /update/:id — forbidden fields

  /** The keys an update may not contain, in the order they are checked. */
  const ForbiddenFields: seq<string> := ["created_by", "start_at"]

  /** The first forbidden field the body contains, if any. */
  method FindForbiddenField(keys: set<string>) returns (r: Option<string>)
    ensures r.None? <==> forall k :: 0 <= k < |ForbiddenFields| ==> ForbiddenFields[k] !in keys
    ensures r.Some? ==> exists k :: (0 <= k < |ForbiddenFields| && r.value == ForbiddenFields[k]
      && r.value in keys && forall m :: 0 <= m < k ==> ForbiddenFields[m] !in keys)
  {
    for i := 0 to |ForbiddenFields|
      invariant forall m :: 0 <= m < i ==> ForbiddenFields[m] !in keys
    {
      if ForbiddenFields[i] in keys {
        return Some(ForbiddenFields[i]);
      }
    }
    return None;
  }

  // ---------------------------------------------------------------------------
  // PATCH /update/:id — attendees

  /** The user ids of the marks with status "present" and a non-empty id, in
      request order. */
  function PresentUserIds(marks: seq<AttendanceMark>): seq<UserId>
  {
    if marks == [] then []
    else
      var m := marks[|marks| - 1];
      PresentUserIds(marks[..|marks| - 1]) + (if m.status == "present" && m.userId != "" then [m.userId] else [])
  }

  /** The ids of `ids` that are not in `existing`, in order; repeats within
      `ids` are kept. */
  function NotIn(existing: seq<UserId>, ids: seq<UserId>): seq<UserId>
  {
    if ids == [] then []
    else NotIn(existing, ids[..|ids| - 1]) + (if ids[|ids| - 1] in existing then [] else [ids[|ids| - 1]])
  }

  lemma {:induction false} PresentUserIdsSpec(marks: seq<AttendanceMark>, x: UserId)
    ensures x in PresentUserIds(marks) <==>
      x != "" && exists k :: 0 <= k < |marks| && marks[k].status == "present" && marks[k].userId == x
  {
    if marks != [] {
      var init := marks[..|marks| - 1];
      var last := |marks| - 1;
      PresentUserIdsSpec(init, x);
      if x in PresentUserIds(marks) && x in PresentUserIds(init) {
        var k :| 0 <= k < |init| && init[k].status == "present" && init[k].userId == x;
        assert marks[k] == init[k];
      }
      if x != "" && exists k :: 0 <= k < |marks| && marks[k].status == "present" && marks[k].userId == x {
        var k :| 0 <= k < |marks| && marks[k].status == "present" && marks[k].userId == x;
        if k < last {
          assert init[k] == marks[k];
        }
      }
    }
  }

  /** An id is added exactly when it is not already an attendee, and as many
      times as the request names it: the list built from the original
      attendees does not grow while the request is walked. */
  lemma {:induction false} NotInSpec(existing: seq<UserId>, ids: seq<UserId>, x: UserId)
    ensures x in NotIn(existing, ids) <==> x in ids && x !in existing
    ensures multiset(NotIn(existing, ids))[x] == if x in existing then 0 else multiset(ids)[x]
  {
    if ids != [] {
      var init := ids[..|ids| - 1];
      NotInSpec(existing, init, x);
      assert ids == init + [ids[|ids| - 1]];
    }
  }

  /** The attendee list after an update with attendance: the old attendees
      followed by each present user id that was not among them. */
  method ExtendAttendees(attendees: seq<UserId>, marks: seq<AttendanceMark>) returns (r: seq<UserId>)
    ensures r == attendees + NotIn(attendees, PresentUserIds(marks))
  {
    var presentUserIds := PresentUserIds(marks);
    var existingUserIds := attendees;
    r := attendees;
    for i := 0 to |presentUserIds|
      invariant r == attendees + NotIn(existingUserIds, presentUserIds[..i])
    {
      assert presentUserIds[..i + 1][..i] == presentUserIds[..i];
      if presentUserIds[i] !in existingUserIds {
        r := r + [presentUserIds[i]];
      }
    }
    assert presentUserIds[..|presentUserIds|] == presentUserIds;
  }

  /** The attendee extension keeps the old list as a prefix and appends
      exactly the present, non-empty ids that were not attendees, repeats
      included. */
  lemma AttendeesExtended(attendees: seq<UserId>, marks: seq<AttendanceMark>, x: UserId)
    ensures var r := attendees + NotIn(attendees, PresentUserIds(marks));
      && r[..|attendees|] == attendees
      && (x in r[|attendees|..] <==>
           x !in attendees && x != ""
           && exists k :: 0 <= k < |marks| && marks[k].status == "present" && marks[k].userId == x)
      && multiset(r[|attendees|..])[x] ==
           if x in attendees then 0 else multiset(PresentUserIds(marks))[x]
  {
    var r := attendees + NotIn(attendees, PresentUserIds(marks));
    assert r[|attendees|..] == NotIn(attendees, PresentUserIds(marks));
    NotInSpec(attendees, PresentUserIds(marks), x);
    PresentUserIdsSpec(marks, x);
  }

  // ---------------------------------------------------------------------------
  // PATCH /update/:id — ratings

  /** Whether some rating in `rs` is by `rater`. */
  predicate RatedBy(rs: seq<Rating>, rater: UserId)
  {
    exists k :: 0 <= k < |rs| && rs[k].ratingBy == Some(rater)
  }

  /** No two ratings with a rater share it. */
  ghost predicate DistinctRaters(rs: seq<Rating>)
  {
    forall i, j :: 0 <= i < j < |rs| && rs[i].ratingBy.Some? ==> rs[i].ratingBy != rs[j].ratingBy
  }

  /** The lookup table of incoming ratings keeps, per rater, the last one. */
  function LastRatingBy(incoming: seq<Rating>, rater: UserId): (r: Option<Rating>)
    ensures r.Some? ==> r.value in incoming && r.value.ratingBy == Some(rater)
    ensures r.Some? ==> exists k :: (0 <= k < |incoming| && incoming[k] == r.value
      && forall m :: k < m < |incoming| ==> incoming[m].ratingBy != Some(rater))
    ensures r.None? ==> !RatedBy(incoming, rater)
  {
    if incoming == [] then None
    else if incoming[|incoming| - 1].ratingBy == Some(rater) then Some(incoming[|incoming| - 1])
    else
      var init := incoming[..|incoming| - 1];
      var r := LastRatingBy(init, rater);
      assert r.None? ==> !RatedBy(init, rater);
      assert forall m :: 0 <= m < |init| ==> init[m] == incoming[m];
      r
  }

  /** An existing rating with an incoming rating by the same rater gets the
      incoming fields laid over its own. */
  function OverlayRating(r: Rating, incoming: seq<Rating>): Rating
  {
    match r.ratingBy
    case None => r
    case Some(rater) =>
      match LastRatingBy(incoming, rater)
      case None => r
      case Some(u) => Rating(r.ratingBy, r.fields + u.fields)
  }

  /** The `map` over the existing ratings. */
  function OverlayRatings(existing: seq<Rating>, incoming: seq<Rating>): (r: seq<Rating>)
    ensures |r| == |existing|
  {
    seq(|existing|, k requires 0 <= k < |existing| => OverlayRating(existing[k], incoming))
  }

  /** The `forEach` that appends each incoming rating whose rater is not yet
      in the list being built; ratings without a rater are dropped. */
  function AppendNewRatings(acc: seq<Rating>, incoming: seq<Rating>): seq<Rating>
    decreases |incoming|
  {
    if incoming == [] then acc
    else
      var r := incoming[0];
      AppendNewRatings(
        if r.ratingBy.Some? && !RatedBy(acc, r.ratingBy.value) then acc + [r] else acc,
        incoming[1..])
  }

  /** The merged ratings of one event. */
  function MergedRatings(existing: seq<Rating>, incoming: seq<Rating>): seq<Rating>
  {
    AppendNewRatings(OverlayRatings(existing, incoming), incoming)
  }

  /** The merge of an event's ratings, as the update route runs it. */
  method MergeRatings(existing: seq<Rating>, incoming: seq<Rating>) returns (newRatings: seq<Rating>)
    ensures newRatings == MergedRatings(existing, incoming)
  {
    newRatings := OverlayRatings(existing, incoming);
    for i := 0 to |incoming|
      invariant AppendNewRatings(newRatings, incoming[i..]) == MergedRatings(existing, incoming)
    {
      var r := incoming[i];
      assert incoming[i..][1..] == incoming[i + 1..];
      if r.ratingBy.Some? && !RatedBy(newRatings, r.ratingBy.value) {
        newRatings := newRatings + [r];
      }
    }
  }

  /** The append phase keeps what it starts from as a prefix. */
  lemma {:induction false} AppendNewRatingsPrefix(acc: seq<Rating>, incoming: seq<Rating>)
    ensures var res := AppendNewRatings(acc, incoming); |res| >= |acc| && res[..|acc|] == acc
    decreases |incoming|
  {
    if incoming != [] {
      var r := incoming[0];
      var next := if r.ratingBy.Some? && !RatedBy(acc, r.ratingBy.value) then acc + [r] else acc;
      AppendNewRatingsPrefix(next, incoming[1..]);
      assert next[..|acc|] == acc;
    }
  }

  /** Each rating the append phase adds is an incoming one whose rater was
      not yet present. */
  lemma {:induction false} AppendNewRatingsFromIncoming(acc: seq<Rating>, incoming: seq<Rating>)
    ensures var res := AppendNewRatings(acc, incoming);
      forall k :: |acc| <= k < |res| ==>
        res[k] in incoming && res[k].ratingBy.Some? && !RatedBy(acc, res[k].ratingBy.value)
    decreases |incoming|
  {
    if incoming != [] {
      var r := incoming[0];
      var next := if r.ratingBy.Some? && !RatedBy(acc, r.ratingBy.value) then acc + [r] else acc;
      AppendNewRatingsPrefix(next, incoming[1..]);
      AppendNewRatingsFromIncoming(next, incoming[1..]);
      var res := AppendNewRatings(acc, incoming);
      assert res == AppendNewRatings(next, incoming[1..]);
      forall k | |acc| <= k < |res|
        ensures res[k] in incoming && res[k].ratingBy.Some? && !RatedBy(acc, res[k].ratingBy.value)
      {
        if k < |next| {
          assert res[k] == next[k] == r;
        } else {
          assert res[k] in incoming[1..];
          assert !RatedBy(next, res[k].ratingBy.value);
        }
      }
    }
  }

  /** Every incoming rater is present after the append phase. */
  lemma {:induction false} AppendNewRatingsCovers(acc: seq<Rating>, incoming: seq<Rating>)
    ensures var res := AppendNewRatings(acc, incoming);
      forall k :: 0 <= k < |incoming| && incoming[k].ratingBy.Some? ==>
        RatedBy(res, incoming[k].ratingBy.value)
    decreases |incoming|
  {
    if incoming != [] {
      var r := incoming[0];
      var next := if r.ratingBy.Some? && !RatedBy(acc, r.ratingBy.value) then acc + [r] else acc;
      AppendNewRatingsPrefix(next, incoming[1..]);
      AppendNewRatingsCovers(next, incoming[1..]);
      var res := AppendNewRatings(acc, incoming);
      assert res == AppendNewRatings(next, incoming[1..]);
      forall k | 0 <= k < |incoming| && incoming[k].ratingBy.Some?
        ensures RatedBy(res, incoming[k].ratingBy.value)
      {
        if k == 0 {
          if RatedBy(acc, r.ratingBy.value) {
            var w :| 0 <= w < |acc| && acc[w].ratingBy == r.ratingBy;
            assert res[w] == next[w] == acc[w];
          } else {
            assert res[|acc|] == next[|acc|] == r;
          }
        } else {
          assert incoming[k] == incoming[1..][k - 1];
        }
      }
    }
  }

  /** The append phase never lets two ratings share a rater. */
  lemma {:induction false} AppendNewRatingsDistinct(acc: seq<Rating>, incoming: seq<Rating>)
    requires DistinctRaters(acc)
    ensures DistinctRaters(AppendNewRatings(acc, incoming))
    decreases |incoming|
  {
    if incoming != [] {
      var r := incoming[0];
      var next := if r.ratingBy.Some? && !RatedBy(acc, r.ratingBy.value) then acc + [r] else acc;
      assert DistinctRaters(next);
      AppendNewRatingsDistinct(next, incoming[1..]);
    }
  }

  /** Whether the append phase, started from `rs`, keeps the incoming rating
      at index `j`: it has a rater that no rating of `rs` and no earlier
      incoming rating has, so of several ratings by a new rater the first is
      kept. */
  predicate AppendsRating(rs: seq<Rating>, incoming: seq<Rating>, j: nat)
    requires j < |incoming|
  {
    && incoming[j].ratingBy.Some?
    && !RatedBy(rs, incoming[j].ratingBy.value)
    && forall i :: 0 <= i < j ==> incoming[i].ratingBy != incoming[j].ratingBy
  }

  /** The incoming ratings from index `j` on that the append phase keeps
      when started from `rs`, in request order. */
  function NewRatings(rs: seq<Rating>, incoming: seq<Rating>, j: nat): seq<Rating>
    requires j <= |incoming|
    decreases |incoming| - j
  {
    if j == |incoming| then []
    else (if AppendsRating(rs, incoming, j) then [incoming[j]] else []) + NewRatings(rs, incoming, j + 1)
  }

  /** A rater is present after an append exactly when it was before or the
      appended rating is theirs. */
  lemma RatedByAppend(rs: seq<Rating>, r: Rating, u: UserId)
    ensures RatedBy(rs + [r], u) <==> RatedBy(rs, u) || r.ratingBy == Some(u)
  {
    if RatedBy(rs + [r], u) {
      var w :| 0 <= w < |rs + [r]| && (rs + [r])[w].ratingBy == Some(u);
      if w < |rs| {
        assert rs[w] == (rs + [r])[w];
      }
    }
    if RatedBy(rs, u) {
      var w :| 0 <= w < |rs| && rs[w].ratingBy == Some(u);
      assert (rs + [r])[w] == rs[w];
    }
    if r.ratingBy == Some(u) {
      assert (rs + [r])[|rs|] == r;
    }
  }

  /** Two lists with the same raters position by position have the same
      raters present. */
  lemma RatedBySameRaters(a: seq<Rating>, b: seq<Rating>, u: UserId)
    requires |a| == |b| && forall k :: 0 <= k < |a| ==> a[k].ratingBy == b[k].ratingBy
    ensures RatedBy(a, u) <==> RatedBy(b, u)
  {
    if RatedBy(a, u) {
      var w :| 0 <= w < |a| && a[w].ratingBy == Some(u);
      assert b[w].ratingBy == Some(u);
    }
    if RatedBy(b, u) {
      var w :| 0 <= w < |b| && b[w].ratingBy == Some(u);
      assert a[w].ratingBy == Some(u);
    }
  }

  /** With the raters of the list built so far known, the append phase's
      test on the rating at index `j` is `AppendsRating`. */
  lemma AppendsRatingFirst(base: seq<Rating>, cur: seq<Rating>, incoming: seq<Rating>, j: nat)
    requires j < |incoming|
    requires forall u :: RatedBy(cur, u) <==> RatedBy(base, u) || RatedBy(incoming[..j], u)
    ensures (incoming[j].ratingBy.Some? && !RatedBy(cur, incoming[j].ratingBy.value))
      == AppendsRating(base, incoming, j)
  {
    var r := incoming[j];
    if r.ratingBy.Some? && !RatedBy(incoming[..j], r.ratingBy.value) {
      forall i | 0 <= i < j
        ensures incoming[i].ratingBy != r.ratingBy
      {
        assert incoming[..j][i] == incoming[i];
      }
    }
    if r.ratingBy.Some? && RatedBy(incoming[..j], r.ratingBy.value) {
      var w :| 0 <= w < j && incoming[..j][w].ratingBy == r.ratingBy;
      assert incoming[w].ratingBy == r.ratingBy;
    }
  }

  /** One step of the append phase keeps the raters of the list built so
      far equal to those of `base` and of the ratings processed. */
  lemma RatersAfterStep(base: seq<Rating>, cur: seq<Rating>, incoming: seq<Rating>, j: nat, keep: bool)
    requires j < |incoming|
    requires forall u :: RatedBy(cur, u) <==> RatedBy(base, u) || RatedBy(incoming[..j], u)
    requires keep == (incoming[j].ratingBy.Some? && !RatedBy(cur, incoming[j].ratingBy.value))
    ensures var next := if keep then cur + [incoming[j]] else cur;
      forall u :: RatedBy(next, u) <==> RatedBy(base, u) || RatedBy(incoming[..j + 1], u)
  {
    var r := incoming[j];
    assert incoming[..j + 1] == incoming[..j] + [r];
    var next := if keep then cur + [r] else cur;
    forall u
      ensures RatedBy(next, u) <==> RatedBy(base, u) || RatedBy(incoming[..j + 1], u)
    {
      RatedByAppend(incoming[..j], r, u);
      if keep {
        RatedByAppend(cur, r, u);
      }
    }
  }

  /** Once the first `j` incoming ratings are processed, the list built so
      far has exactly the raters of `base` and of those ratings, and the rest
      of the append phase adds `NewRatings(base, incoming, j)`. */
  lemma {:induction false} AppendNewRatingsFrom(base: seq<Rating>, cur: seq<Rating>, incoming: seq<Rating>, j: nat)
    requires j <= |incoming|
    requires forall u :: RatedBy(cur, u) <==> RatedBy(base, u) || RatedBy(incoming[..j], u)
    ensures AppendNewRatings(cur, incoming[j..]) == cur + NewRatings(base, incoming, j)
    decreases |incoming| - j
  {
    if j == |incoming| {
      assert incoming[j..] == [];
    } else {
      var r := incoming[j];
      assert incoming[j..][0] == r && incoming[j..][1..] == incoming[j + 1..];
      assert incoming[..j + 1] == incoming[..j] + [r];
      var keep := r.ratingBy.Some? && !RatedBy(cur, r.ratingBy.value);
      AppendsRatingFirst(base, cur, incoming, j);
      var next := if keep then cur + [r] else cur;
      assert AppendNewRatings(cur, incoming[j..]) == AppendNewRatings(next, incoming[j + 1..]);
      var added := if keep then [r] else [];
      assert NewRatings(base, incoming, j) == added + NewRatings(base, incoming, j + 1);
      RatersAfterStep(base, cur, incoming, j, keep);
      AppendNewRatingsFrom(base, next, incoming, j + 1);
      assert cur + (added + NewRatings(base, incoming, j + 1)) == next + NewRatings(base, incoming, j + 1);
    }
  }

  /** The append phase adds exactly `NewRatings`: the first incoming rating
      of each rater not yet present, in request order. */
  lemma AppendNewRatingsInOrder(acc: seq<Rating>, incoming: seq<Rating>)
    ensures AppendNewRatings(acc, incoming) == acc + NewRatings(acc, incoming, 0)
  {
    assert incoming[0..] == incoming;
    AppendNewRatingsFrom(acc, acc, incoming, 0);
  }

  /** The append phase keeps what it starts from as a prefix, appends only
      incoming ratings with a rater that was not yet present, leaves every
      incoming rater present, and never lets two ratings share a rater. */
  lemma AppendNewRatingsSpec(acc: seq<Rating>, incoming: seq<Rating>)
    ensures var res := AppendNewRatings(acc, incoming);
      && |res| >= |acc| && res[..|acc|] == acc
      && (forall k :: |acc| <= k < |res| ==>
            res[k] in incoming && res[k].ratingBy.Some? && !RatedBy(acc, res[k].ratingBy.value))
      && (forall k :: 0 <= k < |incoming| && incoming[k].ratingBy.Some? ==>
            RatedBy(res, incoming[k].ratingBy.value))
      && (DistinctRaters(acc) ==> DistinctRaters(res))
      && res[|acc|..] == NewRatings(acc, incoming, 0)
  {
    AppendNewRatingsInOrder(acc, incoming);
    AppendNewRatingsPrefix(acc, incoming);
    AppendNewRatingsFromIncoming(acc, incoming);
    AppendNewRatingsCovers(acc, incoming);
    if DistinctRaters(acc) {
      AppendNewRatingsDistinct(acc, incoming);
    }
  }

  /** The ratings the merge appends after the existing ones are exactly
      `NewRatings` of the existing ratings: overlaying leaves the raters as
      they were. */
  lemma MergedRatingsAppended(existing: seq<Rating>, incoming: seq<Rating>)
    ensures var m := MergedRatings(existing, incoming);
      |m| >= |existing| && m[|existing|..] == NewRatings(existing, incoming, 0)
  {
    var o := OverlayRatings(existing, incoming);
    forall u
      ensures RatedBy(o, u) <==> RatedBy(existing, u) || RatedBy(incoming[..0], u)
    {
      RatedBySameRaters(o, existing, u);
    }
    assert incoming[0..] == incoming;
    AppendNewRatingsFrom(existing, o, incoming, 0);
  }

  /** The merged ratings of an event: the existing ratings in their order,
      each with the last incoming rating by its rater laid over it, then the
      incoming ratings by raters not yet present. */
  lemma MergedRatingsSpec(existing: seq<Rating>, incoming: seq<Rating>)
    ensures var m := MergedRatings(existing, incoming);
      && |m| >= |existing|
      && (forall k :: 0 <= k < |existing| ==> m[k].ratingBy == existing[k].ratingBy)
      && (forall k :: (0 <= k < |existing| && existing[k].ratingBy.Some?
            && LastRatingBy(incoming, existing[k].ratingBy.value).Some?) ==>
            m[k].fields == existing[k].fields + LastRatingBy(incoming, existing[k].ratingBy.value).value.fields)
      && (forall k :: (0 <= k < |existing| && (existing[k].ratingBy.None?
            || !RatedBy(incoming, existing[k].ratingBy.value))) ==> m[k] == existing[k])
      && (forall k :: |existing| <= k < |m| ==> m[k] in incoming && m[k].ratingBy.Some?)
      && (forall k :: 0 <= k < |incoming| && incoming[k].ratingBy.Some? ==>
            RatedBy(m, incoming[k].ratingBy.value))
      && (DistinctRaters(existing) ==> DistinctRaters(m))
      && m[|existing|..] == NewRatings(existing, incoming, 0)
  {
    MergedRatingsAppended(existing, incoming);
    var o := OverlayRatings(existing, incoming);
    AppendNewRatingsSpec(o, incoming);
    var m := MergedRatings(existing, incoming);
    assert forall k :: 0 <= k < |existing| ==> m[k] == o[k];
    if DistinctRaters(existing) {
      assert DistinctRaters(o);
    }
  }

  // ---------------------------------------------------------------------------
  // PATCH /update/:id — events

  /** An incoming event: `id` is None when `_id` is absent or empty; `rating`
      is None when the patch has no rating array. */
  datatype EventPatch = EventPatch(id: Option<string>, fields: map<string, string>, rating: Option<seq<Rating>>)

  /** Whether some event in `es` has `_id` equal to `id`. */
  predicate HasEvent(es: seq<Event>, id: string)
  {
    exists k :: 0 <= k < |es| && es[k].id == Some(id)
  }

  /** The lookup table of incoming events keeps, per `_id`, the last one. */
  function LastPatchFor(ps: seq<EventPatch>, id: string): (r: Option<EventPatch>)
    ensures r.Some? ==> r.value in ps && r.value.id == Some(id)
    ensures r.Some? ==> exists k :: (0 <= k < |ps| && ps[k] == r.value
      && forall m :: k < m < |ps| ==> ps[m].id != Some(id))
    ensures r.None? ==> forall k :: 0 <= k < |ps| ==> ps[k].id != Some(id)
  {
    if ps == [] then None
    else if ps[|ps| - 1].id == Some(id) then Some(ps[|ps| - 1])
    else
      var init := ps[..|ps| - 1];
      assert forall m :: 0 <= m < |init| ==> init[m] == ps[m];
      LastPatchFor(init, id)
  }

  /** An existing event matched by an incoming one: incoming fields over its
      own, and its ratings merged with the incoming ratings when given. */
  function OverlayEvent(e: Event, ps: seq<EventPatch>): Event
  {
    match e.id
    case None => e
    case Some(id) =>
      match LastPatchFor(ps, id)
      case None => e
      case Some(p) =>
        Event(e.id, e.fields + p.fields,
              match p.rating
              case None => e.rating
              case Some(rs) => MergedRatings(e.rating, rs))
  }

  /** The `map` over the existing events. */
  function OverlayEvents(existing: seq<Event>, ps: seq<EventPatch>): (r: seq<Event>)
    ensures |r| == |existing|
  {
    seq(|existing|, k requires 0 <= k < |existing| => OverlayEvent(existing[k], ps))
  }

  /** An incoming event appended as it came. */
  function FromPatch(p: EventPatch): Event
  {
    Event(p.id, p.fields, match p.rating case None => [] case Some(rs) => rs)
  }

  /** The `forEach` that appends each incoming event without `_id`, or whose
      `_id` is not yet in the list being built. */
  function AppendNewEvents(acc: seq<Event>, ps: seq<EventPatch>): seq<Event>
    decreases |ps|
  {
    if ps == [] then acc
    else
      var p := ps[0];
      AppendNewEvents(
        if p.id.None? || !HasEvent(acc, p.id.value) then acc + [FromPatch(p)] else acc,
        ps[1..])
  }

  /** The merged events of an occasion. */
  function MergedEvents(existing: seq<Event>, ps: seq<EventPatch>): seq<Event>
  {
    AppendNewEvents(OverlayEvents(existing, ps), ps)
  }

  /** The merge of an occasion's events, as the update route runs it. */
  method MergeEvents(existing: seq<Event>, ps: seq<EventPatch>) returns (updatedEvents: seq<Event>)
    ensures updatedEvents == MergedEvents(existing, ps)
  {
    updatedEvents := OverlayEvents(existing, ps);
    for i := 0 to |ps|
      invariant AppendNewEvents(updatedEvents, ps[i..]) == MergedEvents(existing, ps)
    {
      var ev := ps[i];
      assert ps[i..][1..] == ps[i + 1..];
      if ev.id.None? || !HasEvent(updatedEvents, ev.id.value) {
        updatedEvents := updatedEvents + [FromPatch(ev)];
      }
    }
  }

  /** The append phase keeps what it starts from as a prefix. */
  lemma {:induction false} AppendNewEventsPrefix(acc: seq<Event>, ps: seq<EventPatch>)
    ensures var res := AppendNewEvents(acc, ps); |res| >= |acc| && res[..|acc|] == acc
    decreases |ps|
  {
    if ps != [] {
      var p := ps[0];
      var next := if p.id.None? || !HasEvent(acc, p.id.value) then acc + [FromPatch(p)] else acc;
      AppendNewEventsPrefix(next, ps[1..]);
      assert next[..|acc|] == acc;
    }
  }

  /** Each event the append phase adds is an incoming one. */
  lemma {:induction false} AppendNewEventsFromIncoming(acc: seq<Event>, ps: seq<EventPatch>)
    ensures var res := AppendNewEvents(acc, ps);
      forall k :: |acc| <= k < |res| ==> exists p :: p in ps && res[k] == FromPatch(p)
    decreases |ps|
  {
    if ps != [] {
      var p := ps[0];
      var next := if p.id.None? || !HasEvent(acc, p.id.value) then acc + [FromPatch(p)] else acc;
      AppendNewEventsPrefix(next, ps[1..]);
      AppendNewEventsFromIncoming(next, ps[1..]);
      var res := AppendNewEvents(acc, ps);
      assert res == AppendNewEvents(next, ps[1..]);
      forall k | |acc| <= k < |res|
        ensures exists q :: q in ps && res[k] == FromPatch(q)
      {
        if k < |next| {
          assert res[k] == next[k] == FromPatch(p) && p in ps;
        } else {
          var tail := AppendNewEvents(next, ps[1..]);
          assert |next| <= k < |tail| && res[k] == tail[k];
          var q :| q in ps[1..] && tail[k] == FromPatch(q);
          assert q in ps;
        }
      }
    }
  }

  /** An `_id` present in a list is present in any list that extends it. */
  lemma HasEventExtends(a: seq<Event>, b: seq<Event>, id: string)
    requires |a| <= |b| && b[..|a|] == a
    ensures HasEvent(a, id) ==> HasEvent(b, id)
  {
    if HasEvent(a, id) {
      var w :| 0 <= w < |a| && a[w].id == Some(id);
      assert b[w] == a[w];
    }
  }

  /** Two lists with the same ids position by position hold the same `_id`s. */
  lemma HasEventSameIds(a: seq<Event>, b: seq<Event>, id: string)
    requires |a| == |b| && forall k :: 0 <= k < |a| ==> a[k].id == b[k].id
    ensures HasEvent(a, id) <==> HasEvent(b, id)
  {
    if HasEvent(a, id) {
      var w :| 0 <= w < |a| && a[w].id == Some(id);
      assert b[w].id == Some(id);
    }
    if HasEvent(b, id) {
      var w :| 0 <= w < |b| && b[w].id == Some(id);
      assert a[w].id == Some(id);
    }
  }

  /** An event with an `_id` is appended only when no event in the list it
      starts from has that `_id`. */
  lemma {:induction false} AppendNewEventsFresh(acc: seq<Event>, ps: seq<EventPatch>)
    ensures var res := AppendNewEvents(acc, ps);
      forall k :: |acc| <= k < |res| && res[k].id.Some? ==> !HasEvent(acc, res[k].id.value)
    decreases |ps|
  {
    if ps != [] {
      var p := ps[0];
      var next := if p.id.None? || !HasEvent(acc, p.id.value) then acc + [FromPatch(p)] else acc;
      AppendNewEventsPrefix(next, ps[1..]);
      AppendNewEventsFresh(next, ps[1..]);
      var res := AppendNewEvents(acc, ps);
      assert res == AppendNewEvents(next, ps[1..]);
      forall k | |acc| <= k < |res| && res[k].id.Some?
        ensures !HasEvent(acc, res[k].id.value)
      {
        if k < |next| {
          assert res[k] == next[k] == FromPatch(p);
        } else {
          HasEventExtends(acc, next, res[k].id.value);
        }
      }
    }
  }

  /** No two events with an `_id` share it. */
  ghost predicate DistinctIds(es: seq<Event>)
  {
    forall i, j :: 0 <= i < j < |es| && es[i].id.Some? ==> es[i].id != es[j].id
  }

  /** The append phase never lets two events share an `_id`. */
  lemma {:induction false} AppendNewEventsDistinct(acc: seq<Event>, ps: seq<EventPatch>)
    requires DistinctIds(acc)
    ensures DistinctIds(AppendNewEvents(acc, ps))
    decreases |ps|
  {
    if ps != [] {
      var p := ps[0];
      var next := if p.id.None? || !HasEvent(acc, p.id.value) then acc + [FromPatch(p)] else acc;
      assert DistinctIds(next);
      AppendNewEventsDistinct(next, ps[1..]);
    }
  }

  /** Whether some incoming event in `ps` has `_id` equal to `id`. */
  predicate HasPatch(ps: seq<EventPatch>, id: string)
  {
    exists k :: 0 <= k < |ps| && ps[k].id == Some(id)
  }

  /** Whether the append phase, started from `es`, keeps the incoming event
      at index `j`: it has no `_id`, or an `_id` that no event of `es` and no
      earlier incoming event has, so of several events with a new `_id` the
      first is kept. */
  predicate AppendsEvent(es: seq<Event>, ps: seq<EventPatch>, j: nat)
    requires j < |ps|
  {
    || ps[j].id.None?
    || (!HasEvent(es, ps[j].id.value) && forall i :: 0 <= i < j ==> ps[i].id != ps[j].id)
  }

  /** The incoming events from index `j` on that the append phase keeps when
      started from `es`, in request order. */
  function NewEvents(es: seq<Event>, ps: seq<EventPatch>, j: nat): seq<Event>
    requires j <= |ps|
    decreases |ps| - j
  {
    if j == |ps| then []
    else (if AppendsEvent(es, ps, j) then [FromPatch(ps[j])] else []) + NewEvents(es, ps, j + 1)
  }

  /** An `_id` is present after an append exactly when it was before or the
      appended event has it. */
  lemma HasEventAppend(es: seq<Event>, e: Event, id: string)
    ensures HasEvent(es + [e], id) <==> HasEvent(es, id) || e.id == Some(id)
  {
    if HasEvent(es + [e], id) {
      var w :| 0 <= w < |es + [e]| && (es + [e])[w].id == Some(id);
      if w < |es| {
        assert es[w] == (es + [e])[w];
      }
    }
    HasEventExtends(es, es + [e], id);
    if e.id == Some(id) {
      assert (es + [e])[|es|] == e;
    }
  }

  /** An `_id` is on some of the first `j + 1` incoming events exactly when
      it is on some of the first `j` or on the one at `j`. */
  lemma HasPatchStep(ps: seq<EventPatch>, j: nat, id: string)
    requires j < |ps|
    ensures HasPatch(ps[..j + 1], id) <==> HasPatch(ps[..j], id) || ps[j].id == Some(id)
  {
    if HasPatch(ps[..j + 1], id) {
      var w :| 0 <= w < j + 1 && ps[..j + 1][w].id == Some(id);
      if w < j {
        assert ps[..j][w] == ps[w];
      }
    }
    if HasPatch(ps[..j], id) {
      var w :| 0 <= w < j && ps[..j][w].id == Some(id);
      assert ps[..j + 1][w] == ps[w];
    }
    if ps[j].id == Some(id) {
      assert ps[..j + 1][j] == ps[j];
    }
  }

  /** With the `_id`s of the list built so far known, the append phase's test
      on the incoming event at index `j` is `AppendsEvent`. */
  lemma AppendsEventFirst(base: seq<Event>, cur: seq<Event>, ps: seq<EventPatch>, j: nat)
    requires j < |ps|
    requires forall id :: HasEvent(cur, id) <==> HasEvent(base, id) || HasPatch(ps[..j], id)
    ensures (ps[j].id.None? || !HasEvent(cur, ps[j].id.value)) == AppendsEvent(base, ps, j)
  {
    var p := ps[j];
    if p.id.Some? && !HasPatch(ps[..j], p.id.value) {
      forall i | 0 <= i < j
        ensures ps[i].id != p.id
      {
        assert ps[..j][i] == ps[i];
      }
    }
    if p.id.Some? && HasPatch(ps[..j], p.id.value) {
      var w :| 0 <= w < j && ps[..j][w].id == p.id;
      assert ps[w].id == p.id;
    }
  }

  /** One step of the append phase keeps the `_id`s of the list built so far
      equal to those of `base` and of the incoming events processed. */
  lemma IdsAfterStep(base: seq<Event>, cur: seq<Event>, ps: seq<EventPatch>, j: nat, keep: bool)
    requires j < |ps|
    requires forall id :: HasEvent(cur, id) <==> HasEvent(base, id) || HasPatch(ps[..j], id)
    requires keep == (ps[j].id.None? || !HasEvent(cur, ps[j].id.value))
    ensures var next := if keep then cur + [FromPatch(ps[j])] else cur;
      forall id :: HasEvent(next, id) <==> HasEvent(base, id) || HasPatch(ps[..j + 1], id)
  {
    var next := if keep then cur + [FromPatch(ps[j])] else cur;
    forall id
      ensures HasEvent(next, id) <==> HasEvent(base, id) || HasPatch(ps[..j + 1], id)
    {
      HasPatchStep(ps, j, id);
      if keep {
        HasEventAppend(cur, FromPatch(ps[j]), id);
      }
    }
  }

  /** Once the first `j` incoming events are processed, the list built so
      far has exactly the `_id`s of `base` and of those events, and the rest
      of the append phase adds `NewEvents(base, ps, j)`. */
  lemma {:induction false} AppendNewEventsFrom(base: seq<Event>, cur: seq<Event>, ps: seq<EventPatch>, j: nat)
    requires j <= |ps|
    requires forall id :: HasEvent(cur, id) <==> HasEvent(base, id) || HasPatch(ps[..j], id)
    ensures AppendNewEvents(cur, ps[j..]) == cur + NewEvents(base, ps, j)
    decreases |ps| - j
  {
    if j == |ps| {
      assert ps[j..] == [];
    } else {
      var p := ps[j];
      assert ps[j..][0] == p && ps[j..][1..] == ps[j + 1..];
      var keep := p.id.None? || !HasEvent(cur, p.id.value);
      AppendsEventFirst(base, cur, ps, j);
      var next := if keep then cur + [FromPatch(p)] else cur;
      assert AppendNewEvents(cur, ps[j..]) == AppendNewEvents(next, ps[j + 1..]);
      var added := if keep then [FromPatch(p)] else [];
      assert NewEvents(base, ps, j) == added + NewEvents(base, ps, j + 1);
      IdsAfterStep(base, cur, ps, j, keep);
      AppendNewEventsFrom(base, next, ps, j + 1);
      assert cur + (added + NewEvents(base, ps, j + 1)) == next + NewEvents(base, ps, j + 1);
    }
  }

  /** The append phase adds exactly `NewEvents`: every incoming event without
      `_id` and the first incoming event of each `_id` not yet present, in
      request order. */
  lemma AppendNewEventsInOrder(acc: seq<Event>, ps: seq<EventPatch>)
    ensures AppendNewEvents(acc, ps) == acc + NewEvents(acc, ps, 0)
  {
    assert ps[0..] == ps;
    AppendNewEventsFrom(acc, acc, ps, 0);
  }

  /** Every incoming event without `_id` is appended. */
  lemma {:induction false} AppendNewEventsKeyless(acc: seq<Event>, ps: seq<EventPatch>)
    ensures var res := AppendNewEvents(acc, ps);
      |res| >= |acc| && forall k :: 0 <= k < |ps| && ps[k].id.None? ==> FromPatch(ps[k]) in res[|acc|..]
    decreases |ps|
  {
    if ps != [] {
      var p := ps[0];
      var next := if p.id.None? || !HasEvent(acc, p.id.value) then acc + [FromPatch(p)] else acc;
      AppendNewEventsPrefix(next, ps[1..]);
      AppendNewEventsKeyless(next, ps[1..]);
      var res := AppendNewEvents(acc, ps);
      forall k | 0 <= k < |ps| && ps[k].id.None?
        ensures FromPatch(ps[k]) in res[|acc|..]
      {
        if k == 0 {
          assert res[..|next|] == next;
          assert res[|acc|..][0] == FromPatch(p);
        } else {
          assert ps[k] == ps[1..][k - 1];
          assert res[|next|..] == res[|acc|..][|next| - |acc|..];
        }
      }
    }
  }

  /** Every incoming `_id` is present after the append phase. */
  lemma {:induction false} AppendNewEventsCovers(acc: seq<Event>, ps: seq<EventPatch>)
    ensures var res := AppendNewEvents(acc, ps);
      forall k :: 0 <= k < |ps| && ps[k].id.Some? ==> HasEvent(res, ps[k].id.value)
    decreases |ps|
  {
    if ps != [] {
      var p := ps[0];
      var next := if p.id.None? || !HasEvent(acc, p.id.value) then acc + [FromPatch(p)] else acc;
      AppendNewEventsPrefix(next, ps[1..]);
      AppendNewEventsCovers(next, ps[1..]);
      var res := AppendNewEvents(acc, ps);
      assert res[..|next|] == next;
      forall k | 0 <= k < |ps| && ps[k].id.Some?
        ensures HasEvent(res, ps[k].id.value)
      {
        if k == 0 {
          if HasEvent(acc, p.id.value) {
            var w :| 0 <= w < |acc| && acc[w].id == p.id;
            assert res[w] == next[w] == acc[w];
          } else {
            assert res[|acc|] == next[|acc|] == FromPatch(p);
          }
        } else {
          assert ps[k] == ps[1..][k - 1];
        }
      }
    }
  }

  /** The events the merge appends after the existing ones are exactly
      `NewEvents` of the existing events: matching leaves the `_id`s as they
      were. */
  lemma MergedEventsAppended(existing: seq<Event>, ps: seq<EventPatch>)
    ensures var m := MergedEvents(existing, ps);
      |m| >= |existing| && m[|existing|..] == NewEvents(existing, ps, 0)
  {
    var o := OverlayEvents(existing, ps);
    forall id
      ensures HasEvent(o, id) <==> HasEvent(existing, id) || HasPatch(ps[..0], id)
    {
      HasEventSameIds(existing, o, id);
    }
    assert ps[0..] == ps;
    AppendNewEventsFrom(existing, o, ps, 0);
  }

  /** The merged events of an occasion: the existing events in their order,
      each matched one with the last incoming event for its `_id` laid over
      it, then the incoming events without `_id` and those with an `_id` not
      yet present. */
  lemma MergedEventsSpec(existing: seq<Event>, ps: seq<EventPatch>)
    ensures var m := MergedEvents(existing, ps);
      && |m| >= |existing|
      && (forall k :: 0 <= k < |existing| ==> m[k].id == existing[k].id)
      && (forall k :: (0 <= k < |existing| && existing[k].id.Some?
            && LastPatchFor(ps, existing[k].id.value).Some?) ==>
            && m[k].fields == existing[k].fields + LastPatchFor(ps, existing[k].id.value).value.fields
            && m[k].rating == match LastPatchFor(ps, existing[k].id.value).value.rating
                              case None => existing[k].rating
                              case Some(rs) => MergedRatings(existing[k].rating, rs))
      && (forall k :: (0 <= k < |existing| && (existing[k].id.None?
            || LastPatchFor(ps, existing[k].id.value).None?)) ==> m[k] == existing[k])
      && (forall k :: |existing| <= k < |m| ==> exists p :: p in ps && m[k] == FromPatch(p))
      && (forall k :: |existing| <= k < |m| && m[k].id.Some? ==> !HasEvent(existing, m[k].id.value))
      && (forall k :: 0 <= k < |ps| && ps[k].id.None? ==> FromPatch(ps[k]) in m[|existing|..])
      && (forall k :: 0 <= k < |ps| && ps[k].id.Some? ==> HasEvent(m, ps[k].id.value))
      && (DistinctIds(existing) ==> DistinctIds(m))
      && m[|existing|..] == NewEvents(existing, ps, 0)
  {
    MergedEventsAppended(existing, ps);
    var o := OverlayEvents(existing, ps);
    AppendNewEventsPrefix(o, ps);
    AppendNewEventsFromIncoming(o, ps);
    AppendNewEventsKeyless(o, ps);
    AppendNewEventsCovers(o, ps);
    AppendNewEventsFresh(o, ps);
    var m := MergedEvents(existing, ps);
    assert forall k :: 0 <= k < |existing| ==> m[k] == o[k];
    if DistinctIds(existing) {
      assert DistinctIds(o);
      AppendNewEventsDistinct(o, ps);
    }
    forall k | |existing| <= k < |m| && m[k].id.Some?
      ensures !HasEvent(existing, m[k].id.value)
    {
      HasEventSameIds(existing, o, m[k].id.value);
    }
  }

  // ---------------------------------------------------------------------------
  // The store and the two write routes

  /** The update request body: the simple fields, the attendance list when
      it is an array, and the events when they are an array. */
  datatype UpdateBody = UpdateBody(
    fields: map<string, string>,
    attendance: Option<seq<AttendanceMark>>,
    events: Option<seq<EventPatch>>)

  /** Body keys the simple-field copy skips; the forbidden keys never get
      this far. */
  const MergedKeys: set<string> := {"events", "attendance"}

  /** The record a successful update saves. */
  function Updated(o: Occasion, body: UpdateBody, now: int): Occasion
  {
    o.(attendees := match body.attendance
                    case None => o.attendees
                    case Some(marks) => o.attendees + NotIn(o.attendees, PresentUserIds(marks)),
       events := match body.events
                 case None => o.events
                 case Some(ps) => MergedEvents(o.events, ps),
       fields := o.fields + map f | f in body.fields && f !in MergedKeys :: body.fields[f],
       updatedAt := now)
  }

  /** The simple-field copy: every body key other than `events` and
      `attendance` overwrites the record's value, and every other key of the
      record keeps its value. */
  lemma UpdatedFields(o: Occasion, body: UpdateBody, now: int, f: string)
    ensures var u := Updated(o, body, now);
      && (f in u.fields <==> f in o.fields || (f in body.fields && f != "events" && f != "attendance"))
      && (f in body.fields && f != "events" && f != "attendance" ==> u.fields[f] == body.fields[f])
      && (f !in body.fields || f == "events" || f == "attendance" ==> (f in o.fields ==> u.fields[f] == o.fields[f]))
      && u.id == o.id && u.status == o.status && u.startAt == o.startAt && u.endsAt == o.endsAt
      && u.createdAt == o.createdAt && u.updatedAt == now
  {
  }

  /** The occasion and attendance collections the controller writes to. */
  class OccasionDb {
    var occasions: seq<Occasion>
    var attendance: map<AttendanceKey, Attendance>

    constructor (os: seq<Occasion>, table: map<AttendanceKey, Attendance>)
      ensures occasions == os && attendance == table
    {
      occasions := os;
      attendance := table;
    }

    /** `markAttendance`: fails unless the occasion exists and is started;
        otherwise upserts the one record keyed (user, occasion). */
    method MarkAttendance(userId: UserId, occasionId: OccasionId, status: string, now: int)
      returns (r: Result<Attendance, OccasionError>)
      modifies this`attendance
      ensures var i := FindById(occasions, occasionId);
        if i.Some? && occasions[i.value].status == Started then
          var key := (userId, occasionId);
          var rec := Upserted(if key in old(attendance) then Some(old(attendance)[key]) else None, status, now);
          r == Success(rec) && attendance == old(attendance)[key := rec]
        else
          r == Failure(EventNotActive) && attendance == old(attendance)
    {
      var i := FindById(occasions, occasionId);
      if i.None? || occasions[i.value].status != Started {
        return Failure(EventNotActive);
      }
      var key := (userId, occasionId);
      var rec := Upserted(if key in attendance then Some(attendance[key]) else None, status, now);
      attendance := attendance[key := rec];
      r := Success(rec);
    }

    /** The attendance loop of the update route: each entry is upserted in
        order; the first failure stops the loop. */
    method MarkAll(id: OccasionId, marks: seq<AttendanceMark>, now: int) returns (marked: bool)
      requires FindById(occasions, id).Some?
      modifies this`attendance
      ensures marked <==> marks == [] || occasions[FindById(occasions, id).value].status == Started
      ensures attendance == if marked then UpsertAll(old(attendance), id, marks, now) else old(attendance)
    {
      ghost var started := occasions[FindById(occasions, id).value].status == Started;
      for k := 0 to |marks|
        invariant attendance == UpsertAll(old(attendance), id, marks[..k], now)
        invariant !started ==> k == 0
      {
        var rec := MarkAttendance(marks[k].userId, id, marks[k].status, now);
        if rec.Failure? {
          assert marks[..0] == [];
          return false;
        }
        UpsertAllOneMore(old(attendance), id, marks[..k], marks[k], now);
        assert marks[..k + 1] == marks[..k] + [marks[k]];
      }
      assert marks[..|marks|] == marks;
      return true;
    }

    /** `POST /create`: the new record is saved when the plan succeeds. */
    method Create(req: CreateRequest, id: OccasionId, now: int) returns (r: Result<Occasion, OccasionError>)
      requires FindById(occasions, id).None?
      modifies this`occasions
      ensures r == PlanOccasion(old(occasions), req, id, now)
      ensures occasions == if r.Success? then old(occasions) + [r.value] else old(occasions)
    {
      r := PlanOccasion(occasions, req, id, now);
      if r.Success? {
        occasions := occasions + [r.value];
      }
    }

    /** `PATCH /update/:id`: reject a forbidden field, then a missing record;
        upsert the attendance entries in order (the first failure aborts
        before the record is saved); extend the attendees, merge the events,
        copy the simple fields and stamp the update time. */
    method Update(id: OccasionId, body: UpdateBody, now: int) returns (r: Result<Occasion, OccasionError>)
      modifies this
      ensures "created_by" in body.fields ==>
        r == Failure(FieldNotAllowed("created_by"))
      ensures "created_by" !in body.fields && "start_at" in body.fields ==>
        r == Failure(FieldNotAllowed("start_at"))
      ensures ("created_by" !in body.fields && "start_at" !in body.fields
        && FindById(old(occasions), id).None?) ==> r == Failure(OccasionNotFound)
      ensures r.Failure? ==> occasions == old(occasions) && attendance == old(attendance)
      ensures ("created_by" !in body.fields && "start_at" !in body.fields
        && FindById(old(occasions), id).Some?) ==>
        var i := FindById(old(occasions), id).value;
        var o := old(occasions)[i];
        if body.attendance.Some? && body.attendance.value != [] && o.status != Started then
          r == Failure(EventNotActive)
        else
          && r == Success(Updated(o, body, now))
          && occasions == old(occasions)[i := r.value]
          && attendance == match body.attendance
                           case None => old(attendance)
                           case Some(marks) => UpsertAll(old(attendance), id, marks, now)
    {
      var forbidden := FindForbiddenField(body.fields.Keys);
      if forbidden.Some? {
        assert ForbiddenFields[0] == "created_by" && ForbiddenFields[1] == "start_at";
        return Failure(FieldNotAllowed(forbidden.value));
      }
      assert "created_by" !in body.fields && "start_at" !in body.fields by {
        assert ForbiddenFields[0] == "created_by" && ForbiddenFields[1] == "start_at";
      }
      var found := FindById(occasions, id);
      if found.None? {
        return Failure(OccasionNotFound);
      }
      var i := found.value;
      var occasion := occasions[i];
      var attendees := occasion.attendees;
      if body.attendance.Some? {
        var marked := MarkAll(id, body.attendance.value, now);
        if !marked {
          return Failure(EventNotActive);
        }
        attendees := ExtendAttendees(attendees, body.attendance.value);
      }
      var events := occasion.events;
      if body.events.Some? {
        events := MergeEvents(events, body.events.value);
      }
      var simple := map f | f in body.fields && f !in MergedKeys :: body.fields[f];
      var updated := occasion.(attendees := attendees, events := events,
                               fields := occasion.fields + simple, updatedAt := now);
      occasions := occasions[i := updated];
      r := Success(updated);
    }
  }
}

=== FILE: occasion_jobs.dfy ===
/** The occasion lifecycle sweeps of jobs/occasionJobs.js: two bulk status
    updates over the occasion records, and the wrappers that enqueue them. */
module OccasionJobs {
  import opened Occasions
  import JobQueue

  /** The start sweep's filter: pending, begun, not yet over. */
  predicate DueToStart(o: Occasion, now: int)
  {
    o.status == Pending && o.startAt <= now && o.endsAt > now
  }

  /** The end sweep's filter: pending and over (whether or not it ever started). */
  predicate DueToEnd(o: Occasion, now: int)
  {
    o.status == Pending && o.endsAt <= now
  }

  /** `startOccasions`: mark every due record started, stamped `now`. */
  function StartOccasions(os: seq<Occasion>, now: int): (r: seq<Occasion>)
    ensures |r| == |os|
  {
    if os == [] then []
    else
      [if DueToStart(os[0], now) then os[0].(status := Started, updatedAt := now) else os[0]]
        + StartOccasions(os[1..], now)
  }

  /** `endOccasions`: mark every due record ended, stamped `now`. */
  function EndOccasions(os: seq<Occasion>, now: int): (r: seq<Occasion>)
    ensures |r| == |os|
  {
    if os == [] then []
    else
      [if DueToEnd(os[0], now) then os[0].(status := Ended, updatedAt := now) else os[0]]
        + EndOccasions(os[1..], now)
  }

  /** The start sweep changes exactly the records its filter matches, and on
      those only `status` (to started) and `updatedat` (to `now`). */
  lemma {:induction false} StartOccasionsAt(os: seq<Occasion>, now: int, i: int)
    requires 0 <= i < |os|
    ensures DueToStart(os[i], now) ==>
      StartOccasions(os, now)[i] == os[i].(status := Started, updatedAt := now)
    ensures !DueToStart(os[i], now) ==> StartOccasions(os, now)[i] == os[i]
  {
    if i > 0 {
      StartOccasionsAt(os[1..], now, i - 1);
    }
  }

  /** The end sweep changes exactly the records its filter matches, and on
      those only `status` (to ended) and `updatedat` (to `now`). */
  lemma {:induction false} EndOccasionsAt(os: seq<Occasion>, now: int, i: int)
    requires 0 <= i < |os|
    ensures DueToEnd(os[i], now) ==>
      EndOccasions(os, now)[i] == os[i].(status := Ended, updatedAt := now)
    ensures !DueToEnd(os[i], now) ==> EndOccasions(os, now)[i] == os[i]
  {
    if i > 0 {
      EndOccasionsAt(os[1..], now, i - 1);
    }
  }

  /** A record that has started is never touched by the end sweep: nothing in
      these jobs moves started to ended. */
  lemma EndSkipsStarted(os: seq<Occasion>, now: int, i: int)
    requires 0 <= i < |os| && os[i].status == Started
    ensures EndOccasions(os, now)[i] == os[i]
  {
    EndOccasionsAt(os, now, i);
  }

  /** The end sweep as written never closes an occasion that did start: one
      started at 0 and over at 10 is still started at 20. */
  lemma StartedOccasionNeverEnds()
    ensures var o := Occasion("o", Started, 0, 10, 0, 0, [], [], map[]);
      o.endsAt <= 20 && EndOccasions([o], 20)[0].status == Started
  {
    var o := Occasion("o", Started, 0, 10, 0, 0, [], [], map[]);
    EndSkipsStarted([o], 20, 0);
  }

  /** The end sweep the lifecycle pending -> started -> ended calls for:
      every occasion not yet ended whose window is over, started or not. */
  predicate DueToClose(o: Occasion, now: int)
  {
    o.status != Ended && o.endsAt <= now
  }

  /** The corrected end sweep: mark every due record ended, stamped `now`. */
  function CloseOccasions(os: seq<Occasion>, now: int): (r: seq<Occasion>)
    ensures |r| == |os|
  {
    if os == [] then []
    else
      [if DueToClose(os[0], now) then os[0].(status := Ended, updatedAt := now) else os[0]]
        + CloseOccasions(os[1..], now)
  }

  lemma {:induction false} CloseOccasionsAt(os: seq<Occasion>, now: int, i: int)
    requires 0 <= i < |os|
    ensures DueToClose(os[i], now) ==>
      CloseOccasions(os, now)[i] == os[i].(status := Ended, updatedAt := now)
    ensures !DueToClose(os[i], now) ==> CloseOccasions(os, now)[i] == os[i]
  {
    if i > 0 {
      CloseOccasionsAt(os[1..], now, i - 1);
    }
  }

  /** After the corrected sweep every occasion whose window is over is ended,
      every other record is as it was, and on records that never started it
      agrees with the sweep as written. */
  lemma CloseOccasionsEndsAllOver(os: seq<Occasion>, now: int)
    ensures forall i :: 0 <= i < |os| && os[i].endsAt <= now ==> CloseOccasions(os, now)[i].status == Ended
    ensures forall i :: 0 <= i < |os| && os[i].endsAt > now ==> CloseOccasions(os, now)[i] == os[i]
    ensures forall i :: 0 <= i < |os| && os[i].status != Started ==> CloseOccasions(os, now)[i] == EndOccasions(os, now)[i]
  {
    forall i | 0 <= i < |os|
      ensures os[i].endsAt <= now ==> CloseOccasions(os, now)[i].status == Ended
      ensures os[i].endsAt > now ==> CloseOccasions(os, now)[i] == os[i]
      ensures os[i].status != Started ==> CloseOccasions(os, now)[i] == EndOccasions(os, now)[i]
    {
      CloseOccasionsAt(os, now, i);
      EndOccasionsAt(os, now, i);
    }
  }

  /** Either sweep only moves a record forward along pending -> started -> ended. */
  lemma SweepsOnlyAdvance(os: seq<Occasion>, now: int, i: int)
    requires 0 <= i < |os|
    ensures Rank(StartOccasions(os, now)[i].status) >= Rank(os[i].status)
    ensures Rank(EndOccasions(os, now)[i].status) >= Rank(os[i].status)
  {
    StartOccasionsAt(os, now, i);
    EndOccasionsAt(os, now, i);
  }

  /** Running the start sweep twice at the same instant changes nothing the
      second time: after it no record matches its filter. */
  lemma StartOccasionsIdempotent(os: seq<Occasion>, now: int)
    ensures forall i :: 0 <= i < |os| ==> !DueToStart(StartOccasions(os, now)[i], now)
    ensures StartOccasions(StartOccasions(os, now), now) == StartOccasions(os, now)
  {
    var r := StartOccasions(os, now);
    forall i | 0 <= i < |os|
      ensures !DueToStart(r[i], now) && StartOccasions(r, now)[i] == r[i]
    {
      StartOccasionsAt(os, now, i);
      StartOccasionsAt(r, now, i);
    }
  }

  /** Running the end sweep twice at the same instant changes nothing the
      second time: after it no record matches its filter. */
  lemma EndOccasionsIdempotent(os: seq<Occasion>, now: int)
    ensures forall i :: 0 <= i < |os| ==> !DueToEnd(EndOccasions(os, now)[i], now)
    ensures EndOccasions(EndOccasions(os, now), now) == EndOccasions(os, now)
  {
    var r := EndOccasions(os, now);
    forall i | 0 <= i < |os|
      ensures !DueToEnd(r[i], now) && EndOccasions(r, now)[i] == r[i]
    {
      EndOccasionsAt(os, now, i);
      EndOccasionsAt(r, now, i);
    }
  }

  /** At one instant the two sweeps match disjoint records (`ends_at > now`
      against `ends_at <= now`), so running them in either order gives the
      same records. */
  lemma SweepsCommute(os: seq<Occasion>, now: int)
    ensures forall i :: 0 <= i < |os| ==> !(DueToStart(os[i], now) && DueToEnd(os[i], now))
    ensures StartOccasions(EndOccasions(os, now), now) == EndOccasions(StartOccasions(os, now), now)
  {
    var se := StartOccasions(EndOccasions(os, now), now);
    var es := EndOccasions(StartOccasions(os, now), now);
    forall i | 0 <= i < |os|
      ensures se[i] == es[i]
    {
      EndOccasionsAt(os, now, i);
      StartOccasionsAt(EndOccasions(os, now), now, i);
      StartOccasionsAt(os, now, i);
      EndOccasionsAt(StartOccasions(os, now), now, i);
    }
  }

  /** The sweeps only take records out of `pending` and never move a window,
      so the pending occasions stay pairwise apart. */
  lemma SweepsKeepPendingDisjoint(os: seq<Occasion>, now: int)
    requires PendingDisjoint(os)
    ensures PendingDisjoint(StartOccasions(os, now))
    ensures PendingDisjoint(EndOccasions(os, now))
  {
    var s := StartOccasions(os, now);
    var e := EndOccasions(os, now);
    forall i, j | 0 <= i < |os| && 0 <= j < |os| && i != j
      ensures s[i].status == Pending ==> !Conflicts(s[j], s[i].startAt, s[i].endsAt)
      ensures e[i].status == Pending ==> !Conflicts(e[j], e[i].startAt, e[i].endsAt)
    {
      StartOccasionsAt(os, now, i);
      StartOccasionsAt(os, now, j);
      EndOccasionsAt(os, now, i);
      EndOccasionsAt(os, now, j);
    }
  }

  /** Priorities the two wrappers enqueue with: start sweeps before end sweeps. */
  const StartPriority := 1
  const EndPriority := 0

  /** `enqueueStartOccasions`: add the start sweep with priority 1. */
  method EnqueueStartOccasions(q: JobQueue.Queue, ok: JobQueue.Oracle) returns (executed: seq<JobQueue.Job>)
    requires q.Valid()
    modifies q
    ensures q.Valid()
    ensures old(q.isRunning) ==>
      && executed == [] && q.isRunning
      && q.queue == JobQueue.Insert(old(q.queue), JobQueue.Job(JobQueue.StartOccasionsJob, StartPriority, 0))
      && q.failedJobs == old(q.failedJobs) && q.pendingRetries == old(q.pendingRetries)
    ensures !old(q.isRunning) ==>
      && executed == JobQueue.Insert(old(q.queue), JobQueue.Job(JobQueue.StartOccasionsJob, StartPriority, 0))
      && q.queue == [] && !q.isRunning
      && q.failedJobs == old(q.failedJobs) + JobQueue.Quarantined(ok, executed)
      && q.pendingRetries == old(q.pendingRetries) + JobQueue.Retries(ok, executed)
  {
    executed := q.Add(JobQueue.Job(JobQueue.StartOccasionsJob, StartPriority, 0), ok);
  }

  /** `enqueueEndOccasions`: add the end sweep with priority 0. */
  method EnqueueEndOccasions(q: JobQueue.Queue, ok: JobQueue.Oracle) returns (executed: seq<JobQueue.Job>)
    requires q.Valid()
    modifies q
    ensures q.Valid()
    ensures old(q.isRunning) ==>
      && executed == [] && q.isRunning
      && q.queue == JobQueue.Insert(old(q.queue), JobQueue.Job(JobQueue.EndOccasionsJob, EndPriority, 0))
      && q.failedJobs == old(q.failedJobs) && q.pendingRetries == old(q.pendingRetries)
    ensures !old(q.isRunning) ==>
      && executed == JobQueue.Insert(old(q.queue), JobQueue.Job(JobQueue.EndOccasionsJob, EndPriority, 0))
      && q.queue == [] && !q.isRunning
      && q.failedJobs == old(q.failedJobs) + JobQueue.Quarantined(ok, executed)
      && q.pendingRetries == old(q.pendingRetries) + JobQueue.Retries(ok, executed)
  {
    executed := q.Add(JobQueue.Job(JobQueue.EndOccasionsJob, EndPriority, 0), ok);
  }

  /** In a queue ordered by priority, every job of a higher priority stands
      ahead of every job of a lower one. */
  lemma HigherStandsAhead(r: seq<JobQueue.Job>, hi: int, lo: int)
    requires JobQueue.ByPriority(r) && lo < hi
    ensures forall i, k :: (0 <= i < |r| && 0 <= k < |r| && r[i].priority == hi && r[k].priority == lo) ==> i < k
  {
  }

  /** When both sweeps are queued while a drain is running, whichever was
      enqueued first, both are in the queue and every start sweep of
      priority 1 stands ahead of every end sweep of priority 0. */
  lemma StartSweepRunsFirst(q: seq<JobQueue.Job>, first: JobQueue.Job, second: JobQueue.Job)
    requires JobQueue.ByPriority(q)
    ensures var r := JobQueue.Insert(JobQueue.Insert(q, first), second);
      && first in r && second in r
      && forall i, k ::
           (0 <= i < |r| && 0 <= k < |r|
            && r[i].action == JobQueue.StartOccasionsJob && r[i].priority == StartPriority
            && r[k].action == JobQueue.EndOccasionsJob && r[k].priority == EndPriority) ==> i < k
  {
    var r1 := JobQueue.Insert(q, first);
    JobQueue.AddSortsIntoPlace(q, first);
    JobQueue.AddSortsIntoPlace(r1, second);
    var r := JobQueue.Insert(r1, second);
    assert first in multiset(r1);
    assert first in multiset(r);
    assert second in multiset(r);
    HigherStandsAhead(r, StartPriority, EndPriority);
  }
}

=== FILE: occasions.dfy ===
/** The occasion records as the store holds them (models/occassion.js), and the
    interval rule that keeps pending occasions apart. Timestamps are integer
    milliseconds; ids are strings. */
module Occasions {
  import opened Wrappers

  type UserId = string
  type OccasionId = string

  /** Lifecycle status of an occasion; new records are `Pending`. */
  datatype Status = Pending | Started | Ended

  /** Position of a status along pending -> started -> ended. */
  function Rank(s: Status): nat
  {
    match s
    case Pending => 0
    case Started => 1
    case Ended => 2
  }

  /** One rating of an event; `ratingBy` is None when the rater id is absent
      or empty. `fields` holds the remaining properties (score, createdAt). */
  datatype Rating = Rating(ratingBy: Option<UserId>, fields: map<string, string>)

  /** One event of an occasion; `id` is the sub-document `_id`. `fields`
      holds type, name and party. */
  datatype Event = Event(id: Option<string>, fields: map<string, string>, rating: seq<Rating>)

  /** An occasion document. `fields` holds the descriptive keys (name,
      location, description, created_by, hijri_date, ...). */
  datatype Occasion = Occasion(
    id: OccasionId,
    status: Status,
    startAt: int,
    endsAt: int,
    createdAt: int,
    updatedAt: int,
    attendees: seq<UserId>,
    events: seq<Event>,
    fields: map<string, string>)

  /** Two time windows share an instant: the test of the create route's
      conflict query, `start_at < ends` and `ends_at > start`. */
  predicate WindowsMeet(start1: int, end1: int, start2: int, end2: int)
  {
    start1 < end2 && end1 > start2
  }

  /** An existing occasion conflicts with a proposed window when it is still
      pending and its window meets the proposed one. */
  predicate Conflicts(o: Occasion, start: int, ends: int)
  {
    o.status == Pending && WindowsMeet(o.startAt, o.endsAt, start, ends)
  }

  /** No two distinct pending occasions of the store have meeting windows. */
  ghost predicate PendingDisjoint(os: seq<Occasion>)
  {
    forall i, j :: 0 <= i < |os| && 0 <= j < |os| && i != j && os[i].status == Pending ==>
      !Conflicts(os[j], os[i].startAt, os[i].endsAt)
  }
}

=== FILE: wrappers.dfy ===
/** Optional values and results with an error, used where the source returns
    `null`/`undefined` or answers a request with an error status. */
module Wrappers {

  datatype Option<T> = None | Some(value: T)

  datatype Result<T, E> = Success(value: T) | Failure(error: E)
}
